=== FILE: README.md ===
# SimpleCrawler core, modelled in Dafny

SimpleCrawler is a small web crawler. From an entry URL it fetches pages
down to a given depth. It finds links in each page with one regular
expression and crawls each link once. It counts what it discovered,
finished, failed and took from a cache. It returns every fetched resource.
Its command-line front end stores the resources on disk and can serve
later crawls from that disk as a cache.

This project models four pieces of that code as pure Dafny functions and
proves properties about them.

- **Traversal engine** (`crawler.dfy`, module `Crawler`).
  - It covers `CrawlAsync`, `InternalCrawlAsync` and `DiscoverTasks`.
  - It is three mutually recursive functions (`CrawlUri`, `FetchedPage`
    for a successful GET, `CrawlChildren`) that thread an explicit `State`:
    - the claimed-URI set;
    - the per-host client map, reduced to each client's redirect mode;
    - the four counters, plus two the source does not have: `unlocated`
      and `undecoded`;
    - the busy flag.
  - The network, the cache hook and `new Uri(base, rel)` are oracles held in
    an `Env`.
  - A success whose text `ReadAsStringAsync` cannot decode is a distinct
    outcome of the `fetch` oracle; a searched page with it takes the error
    tail.
  - A redirect without `Location` is a distinct outcome, `Threw`. It
    propagates as the C# exception does: it escapes a crawl and the cache
    path, and an ancestor's `Task.WhenAll` turns it into that ancestor's
    generic error path.
  - Children run one after the other, in link order, each to completion.
  - The properties are in `crawler_lemmas.dfy` (module `CrawlerProperties`):
    - how the counters pair up;
    - what each branch returns;
    - that results are genuine and never repeat a URI;
    - how the client map grows;
    - what depth 1 allows.
  - Whole crawls of a small site are worked out in `scenarios.dfy`.
- **Content classifier** (`classifier.dfy`): `IsTextFile` and the
  extension allow-list. The string helpers it needs are in `text.dfy`.
- **Link extractor** (`links.dfy`).
  - The regular expression
    `(href *=|HREF *=|src *=|SRC *=|url *\(|URL *\() *\(? *["'](.*?)["']`
    is specified by a declarative predicate, `MatchAt`.
  - It is implemented by a hand-written scanner (`MatchHere`, `Scan`).
  - The scanner is proved sound, complete, and equal to the leftmost,
    non-overlapping search that `Regex.Matches` performs.
  - Worked examples are in `links_examples.dfy`.
- **Local paths and disk cache** (`local_paths.dfy`): from `Program.cs`,
  - the output-path trim;
  - the string part of `DetermineLocalFilePath`;
  - the decision logic of `SearchDiskCache`, where the disk is a map from
    path to text.

`basics.dfy` and `records.dfy` hold `Option`, `byte`, the `uint32` depth
type, and the `Uri`, `CrawlResult` and `ContentRequestResponse` records.

The depth is an unsigned 32-bit newtype. So every `depth - 1` in the
engine carries a proof that it cannot wrap around. Children are only
spawned at depth 2 or more.

Termination needs a bound the source does not have. The ghost set `U`
must contain every `Location` a fetch can return (`RedirectsWithin`). A
redirect keeps the depth and claims one more URI, and `U` bounds how often
that can happen.

### Behaviour of the code worth knowing

- The counters, the claimed set and the client map are never reset. A
  second `CrawlAsync` on the same instance continues from the state the
  first one left.
- Finished can overtake discovered. A searched page is counted finished
  (Crawler.cs:132) before its text is read (Crawler.cs:143). When
  `ReadAsStringAsync` throws, for instance on a `charset` .NET cannot decode
  because no code-pages provider is registered, the error tail
  (Crawler.cs:172-173) finishes the page a second time and its own result
  is lost (`Scenarios.EntryUndecodable`). The model counts such pages in
  the model-only counter `undecoded`.
- The program's own progress handler then crashes the crawl. Program.cs:50
  registers `UpdateProgressCrawled` for every crawled event. Once finished
  exceeds discovered, its `maxBarWidth - barWidth` (Program.cs:119-125) is
  negative, and `new(' ', maxBarWidth - barWidth)` throws
  `ArgumentOutOfRangeException`. In `Scenarios.EntryUndecodable` the
  progress is 2.0 when the error tail raises the event. With a
  `maxBarWidth` of 60, `barWidth` is 120 and the count is -60. That event
  is raised at Crawler.cs:174, outside every `try`. For the entry page the
  exception escapes `CrawlAsync`, leaves `_isCrawling` set, and ends the
  program instead of returning an empty result. Below the entry it reaches
  the parent's generic catch, whose own tail raises the event again. The
  model's handlers never throw, so it returns `Done([])` there (see
  "## Left out").
- With no followed redirect lacking a `Location`, a crawl returns and
  finished equals discovered plus `undecoded`
  (`CrawlerProperties.Balanced`, `CrawlerProperties.CrawlGuarantees`).
  Otherwise `CrawlerProperties.Counted` bounds how far finished falls
  behind by the model-only counter `unlocated`.
- A child that throws makes its fetched parent count as finished twice:
  once after its own fetch, once on its error path. The child that threw is
  never counted as finished, so the totals can still balance
  (`Scenarios.ChildRedirectWithoutLocation`). A parent the cache answered
  has no error path: the exception passes through it to its own parent.
- `_isCrawling` is not cleared when an exception escapes `CrawlAsync`, so
  every later crawl on that instance is refused
  (`Scenarios.EntryRedirectWithoutLocation`).

## Model

| member | source | states |
|---|---|---|
| Records.NotCached | ContentRequestResponse.cs:9-14 | `new(false)`: no skip, and both nullable fields (text flag, content) are null |
| Text.ContainsIgnoreCase | Crawler.cs:181 | true exactly when the needle occurs at some offset, ignoring ASCII case |
| Text.LastAfter | Crawler.cs:184 | `Split(c).Last()`: a suffix without `c` that is either the whole string or preceded by `c` (which determines it uniquely) |
| Text.LastAfterSuffix | Crawler.cs:184 | whatever follows the last separator is the last part |
| Text.LastAfterNone | Crawler.cs:184 | a string without the separator is its own last part |
| Classifier.AnyEqualsIgnoreCase | Crawler.cs:185-190 | the allow-list loop returns true exactly when some entry equals the extension, ignoring case |
| Classifier.SegmentExtension | Crawler.cs:184 | the text compared with the allow-list holds neither `/` nor `.` |
| Classifier.SegmentExtensionIsTail | Crawler.cs:184 | that text is a tail of the path: the whole path, or cut just after a `/` or a `.` |
| Classifier.IsTextFile | Crawler.cs:178-191 | text exactly when the media type contains "text" in any case, or the last dot-part of the last path segment is a known extension, in any case |
| Classifier.TextMediaIsText | Crawler.cs:180-182 | a media type containing "text" anywhere, in any case, decides text whatever the path |
| Classifier.SegmentExtensionAfterDot | Crawler.cs:183-184 | for `dir/stem.ext` the compared extension is `ext` |
| Classifier.WholeSegmentWithoutDot | Crawler.cs:183-184 | a last segment without a dot is compared whole |
| Classifier.WholeSegmentIsText | Crawler.cs:183-190 | a dotless last segment that is itself a known extension makes the path text with no media type |
| Classifier.DocsHtmlIsText | Crawler.cs:34-35 | `/docs/html` with no media type is text, because `html` is on the allow-list |
| Classifier.TrailingSlashNeedsTextMedia | Crawler.cs:180-190 | a path ending in `/` is text only through its media type |
| Links.KeywordFor | Crawler.cs:44 | the six keyword spellings start with six different letters, so the first character picks the only possible keyword |
| Links.RenderLaid | Crawler.cs:44 | the text of a match occurs at `i` exactly when its pieces (keyword, space runs, separator, optional `(`, quotes, value) lie at their positions |
| Links.MatchRendered | Crawler.cs:44 | a match at `i` is exactly an occurrence of the rendering of a shape the expression can produce |
| Links.ReadSound | Crawler.cs:44 | whatever the scanner returns from a faithful partial reading is a match of the expression |
| Links.ReadComplete | Crawler.cs:44 | on the way to a match, the scanner reads exactly that match |
| Links.MatchHere | Crawler.cs:43-45 | the one-offset matcher only returns matches of the expression |
| Links.MatchHereComplete | Crawler.cs:43-45 | every match at an offset is the one the matcher returns there, so a match at an offset is unique |
| Links.ScanIsLeftmost | Crawler.cs:200 | the scanner's matches are the leftmost, non-overlapping search of `Regex.Matches`: each is the leftmost match after the previous one, and nothing matches after the last |
| Links.LeftmostSearchIsScan | Crawler.cs:200 | any leftmost, non-overlapping search result equals the scanner's, so the search is unique |
| Links.ScanOrdered | Crawler.cs:200 | matches come left to right and do not overlap |
| Links.ScanMatches | Crawler.cs:200 | every element of the scan is a match |
| Links.Values | Crawler.cs:203 | one captured value per match, in match order |
| Links.ExtractLinks | Crawler.cs:200-203 | the group-2 values, in order, of the leftmost, non-overlapping search, which exists and is unique; no value holds a quote or a line feed |
| LinkExamples.TwoLinksScan | Crawler.cs:43-45 | in `href="b" src='c.png'` the scanner finds the two matches at offsets 0 and 9 and nothing else |
| LinkExamples.TwoLinks | Crawler.cs:200-203 | `href="b" src='c.png'` yields `["b", "c.png"]` |
| LinkExamples.MixedCaseKeywordIsNoMatch | Crawler.cs:44 | `Href="x"` is no match: the keywords are case-sensitive |
| LinkExamples.MixedQuotes | Crawler.cs:44 | `url("a.png')` matches, capturing `a.png`: either quote may close |
| LocalPaths.TrimOutputPath | Program.cs:34-37 | a trailing `/` is removed; any other path is unchanged |
| LocalPaths.TrimOutputPathOnce | Program.cs:34-35 | exactly one slash comes off: `q/` becomes `q` even when `q` ends in `/` |
| LocalPaths.DecimalString | Program.cs:100 | the port is printed as a non-empty run of decimal digits |
| LocalPaths.ParseDecimalString | Program.cs:100 | the printed port reads back as the port |
| LocalPaths.DecimalStringInjective | Program.cs:100 | different ports print differently |
| LocalPaths.SiteNameInjective | Program.cs:100 | two URIs share a site directory only if host and port agree |
| LocalPaths.SiteName | Program.cs:100 | the site directory is the host, a dash, then a dash-free rest (the printed port), so the port is what follows the last dash |
| LocalPaths.ExtensionScan | Program.cs:107 | the backward scan of `Path.GetExtension` finds the extension dot (last dot of the last component, not final) or reports none |
| LocalPaths.GetExtension | Program.cs:107 | the extension is the suffix from the unique extension dot, at least two characters; empty exactly when there is no such dot |
| LocalPaths.ExtensionAt | Program.cs:107 | the extension is determined by where its dot is |
| LocalPaths.RemotePath | Program.cs:97-99 | the result extends the remote path by nothing or by `index`, differs from it exactly when the path ends in `/`, and never ends in `/`, so it always names a file |
| LocalPaths.BarePath | Program.cs:97-101 | the path before any media suffix starts with the output directory, `/`, the site directory and the remote path, and names a file (no final `/`) whenever the remote path is non-empty |
| LocalPaths.MediaSubtype | Program.cs:110 | the suffix taken from the media type holds no `/` |
| LocalPaths.DetermineLocalFilePath | Program.cs:95-113 | the file lies at or below the bare path `output/host-port` plus the remote path; it is the bare path itself exactly when that has an extension or no media type is known; otherwise it adds `.` and the media subtype, and a non-empty subtype without a dot becomes the file's extension |
| LocalPaths.LocalPathPrefix | Program.cs:100-101 | the stored file lies under the output directory, in the site directory, at the remote path |
| LocalPaths.DotSuffixExtension | Program.cs:107-111 | appending `.` and a dot-free, slash-free word makes that word the extension |
| LocalPaths.SuffixBecomesExtension | Program.cs:107-111 | a page saved with a media subtype suffix has that subtype as its extension |
| LocalPaths.HtmlSubtype | Program.cs:110 | `text/html` gives the suffix `html` |
| LocalPaths.RootPageLocation | Program.cs:97-111 | a site root served as `text/html` is stored at `out/example.com-80/index.html`, and the cache looks at `out/example.com-80/index` |
| LocalPaths.NoExtensionAfterSlash | Program.cs:107 | a path whose last slash is followed by no dot has no extension |
| LocalPaths.SearchDiskCache | Program.cs:129-145 | the lookup path carries no media type; a missing file is not cached; a present file skips the network with its content and a definite text flag; the flag is true exactly when the extension without its dot is a known text extension |
| LocalPaths.CachedFile | Program.cs:133-144 | a file found on disk skips the network with its content and a definite text flag, true exactly when the extension without its dot is a known text extension |
| LocalPaths.QueryIgnored | Program.cs:95-100 | two URIs that differ only in their query get the same local file and the same cache answer |
| LocalPaths.StoredPageIsFound | Program.cs:129-135 | a page stored without a suffix is found again, with the stored text |
| LocalPaths.SuffixedPageIsMissed | Program.cs:131 | a page stored with a media suffix is never found: the cache answers as if it had not been stored |
| LocalPaths.DotlessSegmentHasNoExtension | Program.cs:107 | a remote path whose last segment has no dot gives a stored path without extension |
| LocalPaths.DotlessSegmentIsNotCachedText | Program.cs:134-137 | such a cached file is marked not text |
| LocalPaths.ExtensionRulesDisagree | Program.cs:134-144 | for a dotless last segment naming a known extension (such as `/docs/html`), the cache says not text while the classifier says text |
| Crawler.Initial | Crawler.cs:36-42 | a fresh crawler: nothing claimed, no clients, all counters zero, not crawling |
| Crawler.EnsureClient | Crawler.cs:100-117 | the host gets a client, created with the crawler's redirect mode if new; existing clients are kept and nothing else changes |
| Crawler.Claim | Crawler.cs:70-76 | claiming puts the URI in the claimed set (one more element when it was new), counts one more discovered, and changes nothing else |
| Crawler.ResolveAll | Crawler.cs:201-206 | each link is resolved against the page, in order |
| Crawler.Discover | Crawler.cs:193-207 | `DiscoverTasks`: the crawled URIs are the extracted links, resolved against the page, in match order |
| Crawler.ClaimLowersPending | Crawler.cs:164 | following a redirect lowers the termination measure, because it claims one more URI |
| Crawler.Join | Crawler.cs:145-146 | `Task.WhenAll`: the exception of the first run that threw, in sibling order, if any threw; else the concatenation of the children's results |
| Crawler.CrawlUri | Crawler.cs:64-176 | the claimed set only grows and includes the URI; a URI already claimed returns nothing and changes no state; the busy flag is untouched |
| Crawler.FetchedPage | Crawler.cs:125-175 | a fetched page always returns normally, because the generic catch absorbs its own and its children's exceptions; a non-empty result starts with the page itself, with its data and media type |
| Crawler.CrawlChildren | Crawler.cs:144-146 | every link ends up claimed, and the claimed set only grows |
| Crawler.CrawlAsync | Crawler.cs:47-62 | a busy crawler is refused, then depth 0, both before any change; a completed crawl clears the busy flag, an escaped exception leaves it set; the entry is claimed |
| CrawlerProperties.CountedJoin | Crawler.cs:145 | two sibling stretches joined by `Task.WhenAll` keep the counter accounting |
| CrawlerProperties.CachedLeaf | Crawler.cs:82-94 | a cache answer at depth 1, without content, or not text (unless forced) returns nothing and counts finished and externally resolved |
| CrawlerProperties.CachedParent | Crawler.cs:95-96 | otherwise the cached content's links are crawled one level deeper, and only their results are returned |
| CrawlerProperties.PageAlone | Crawler.cs:126-141 | a fetched page at depth 1, or not text (unless forced), returns exactly itself and counts finished |
| CrawlerProperties.PageParent | Crawler.cs:132-175 | otherwise, if the text cannot be decoded, it records an error, counts the page finished a second time and returns nothing; if the text is decoded it returns itself followed by its children's results in link order, or, if a child threw, records an error and returns nothing |
| CrawlerProperties.RedirectFollowed | Crawler.cs:148-164 | a followed 301 or 302 with `Location` counts the hop finished and crawls the target at the same depth |
| CrawlerProperties.RedirectUnlocated | Crawler.cs:154-159 | a followed 301 or 302 without `Location` throws, after the claim and the client, without finishing |
| CrawlerProperties.FetchFailed | Crawler.cs:166-175 | any other failure, including an unfollowed redirect, returns nothing and counts an error and a finished |
| CrawlerProperties.ChildrenStep | Crawler.cs:144-145 | the children run in order, each from the state the previous one left |
| CrawlerProperties.UriCounted | Crawler.cs:64-176 | discovered grows by the number of new claims; counters never decrease; each error and cache answer comes with a finished; finished exceeds discovered by at most the pages whose text could not be decoded, and by one less when the call threw; with no redirect lacking `Location`, the call returns and finished is exactly discovered plus the undecoded pages |
| CrawlerProperties.ChildrenCounted | Crawler.cs:144-146 | the same accounting holds over a list of children |
| CrawlerProperties.Balanced | Crawler.cs:76-173 | with no redirect lacking `Location`, the call returns, and it finishes every URI it discovers once plus once more for each page whose text could not be decoded |
| CrawlerProperties.UniformResponse | Crawler.cs:100-122 | when every client has the crawler's redirect mode, the fetch uses that mode and the map keeps the property |
| CrawlerProperties.UriClients | Crawler.cs:100-117 | over a whole call the client map only grows, keeps every client, and creates new ones with the crawler's redirect mode |
| CrawlerProperties.ChildrenClients | Crawler.cs:100-117 | the same over a list of children |
| CrawlerProperties.UriDelivered | Crawler.cs:119-146 | every returned result is what the network gave for a URI this call claimed and the cache did not answer, and no URI is returned twice |
| CrawlerProperties.ChildrenDelivered | Crawler.cs:144-146 | the same over a list of children |
| CrawlerProperties.AnsweredNeverReturned | Crawler.cs:82-96 | a URI the cache answers is never among the results, at any depth |
| CrawlerProperties.DepthOne | Crawler.cs:135-138 | at depth 1 nothing is searched for links, so a call returns at most one result |
| CrawlerProperties.DepthOneResult | Crawler.cs:119-138 | that one result is for a URI this call claimed and the cache did not answer, with the payload and media type the network gave for it |
| CrawlerProperties.CrawlGuarantees | Crawler.cs:47-62 | an idle crawl of positive depth ends with results or the escaped exception; counters move as above; results are genuine, newly claimed and distinct; with no redirect lacking `Location` it completes with finished equal to discovered plus the pages whose text could not be decoded |
| CrawlerProperties.FirstCrawlCounters | Crawler.cs:38-41 | after a fresh crawler's first crawl, errors and cache answers never exceed finished, finished exceeds discovered by at most the pages whose text could not be decoded, and discovered is the number of URIs claimed |
| Scenarios.SiteLinks | Crawler.cs:200-205 | the page `href="b" src='c.png'` leads to `b` then `c`, resolved against it |
| Scenarios.LeavesFetched | Crawler.cs:135-137 | two plain pages at depth 1 are fetched in link order, each returning itself |
| Scenarios.ParentReturns | Crawler.cs:143-146 | a searched page whose children return `rs` returns itself followed by `rs` |
| Scenarios.SiteCrawled | Crawler.cs:64-176 | the page `a` at depth 2 returns `a`, `b`, `c` in that order |
| Scenarios.DepthTwoCrawl | Crawler.cs:47-62 | a fresh crawl of that site at depth 2 returns `[a, b, c]` with three discovered, three finished, no errors, and the crawler idle again |
| Scenarios.EntryFails | Crawler.cs:166-175 | a failing entry fetch gives no results, with one discovered, one finished and one error |
| Scenarios.EntryUndecodable | Crawler.cs:132-175 | an HTML entry whose text cannot be decoded, crawled at depth 2 or more, gives no results, one error, one discovered and two finished |
| Scenarios.CachedEntry | Crawler.cs:82-96 | a cache answer for the entry returns only its links' results, with one externally resolved and three finished |
| Scenarios.ChildThrows | Crawler.cs:145 | a child whose redirect lacks `Location` makes the joined run throw, but its sibling is still fetched |
| Scenarios.ChildRedirectWithoutLocation | Crawler.cs:145-175 | that exception sends the parent down its error path: no results, one error, three discovered and three finished |
| Scenarios.EntryRedirectWithoutLocation | Crawler.cs:53-60 | when the entry's redirect lacks `Location`, the crawl fails, the busy flag stays set, and the next crawl is refused |

## Left out

- HTTP: `HttpClient`, `EnsureSuccessStatusCode`, timeouts, automatic
  redirects of the handler, and reading the body as bytes and as text.
  These are the `fetch` oracle. Its text is the decoded body, or `None`
  when `ReadAsStringAsync` throws. A client is kept only as its redirect mode.
- URI parsing, equality and `new Uri(base, rel)` (section 5.2 of RFC 3986)
  are .NET library behaviour. A `Uri` is a record and resolution is the
  `resolve` oracle, which is total: `UriFormatException` for a bad entry
  point or link is not modelled. What a rejected link does in the source is
  stated on the lines below.
- Concurrency. `Task.WhenAll` interleavings, the `lock` blocks, and the
  non-atomic `++` on the counters are not modelled. The model runs siblings
  sequentially, in link order, each subtree to completion. Which sibling
  wins a URI shared by two subtrees depends on the schedule. The schedule
  can also change which URIs are reached at all. For pages the network
  fetches, the source claims every sibling before its first network wait,
  so those siblings are claimed before any grandchild. A sibling the cache
  answers is different: Crawler.cs:95-96 run its `DiscoverTasks` and
  `Task.WhenAll` synchronously, so its links are claimed before the next
  sibling. Beyond that the order is a thread-pool race. The model lets a sibling's subtree claim a later sibling one
  level deeper, where its own links may be out of depth. For example, P at
  depth 3 links to A and B, A links to B, and B links to C. The source
  typically fetches C; the model never claims it.
- Counter overflow. The source's counters are 32-bit `int`s. The model's are
  unbounded naturals.
- Logging, the `Output` helper, the `OnResourceDiscovered` and
  `OnResourceCrawled` events, and `Dispose`. The model assumes the log
  writer and the event handlers never throw. The program's own progress
  handler breaks that assumption whenever finished exceeds discovered (see
  "Behaviour of the code worth knowing" above). A throw inside the fetch
  `try` (Crawler.cs:124, 133) sends the page down the error path. A throw
  at Crawler.cs:77-78 or 86-87, in the redirect catch (Crawler.cs:161-163)
  or in the error tail (Crawler.cs:168-174) escapes the call: for the
  entry page it escapes the crawl.
- Disk I/O. `File.Exists` and `ReadAllText` are a map from path to text.
  `WriteAllBytesAsync`, `Directory.GetParent` and directory creation are
  left out. The "unknown error" thrown for a path with no parent directory
  is not modelled. The crawler's `cache` oracle is one fixed function for
  the whole crawl. With `-w` and `-c` together, Program.cs:53 starts a
  file write for each crawled page during the crawl. A later cache lookup
  may then see a file that an earlier page wrote, depending on whether the
  write has finished. The model does not cover that.
- Query and fragment. The local path uses only `uri.AbsolutePath`
  (Program.cs:97), so URIs that differ only in their query are crawled
  separately but written to one file (`LocalPaths.QueryIgnored`). Which
  write lands last is not modelled. The fragment is not modelled.
- `Path.GetExtension` (Program.cs:107) and `FileInfo.Extension`
  (Program.cs:134) are one helper, `LocalPaths.GetExtension`, with `/` as
  the only separator. It gives the text from the last `.` of the last
  component, and is empty when there is no dot or the dot is the final
  character. On a final dot `FileInfo.Extension` gives `.` instead. Program.cs
  strips the leading dot (lines 138-139) and answers "not text" when nothing
  is left (lines 140-141). That is the same answer as for no extension, so
  sharing the helper changes no answer of `SearchDiskCache`. Windows
  separators and drive letters are not modelled.
- Case-insensitive comparison covers ASCII letters only. `OrdinalIgnoreCase`
  on other characters is not modelled.
- `KnownTextFileExtensions` is a constant. The source's public static
  setter could change it at run time.
- The progress bar (`UpdateProgress`), whose arithmetic is floating point
  and whose output goes to the console.
- Argument parsing, thread-pool settings and the `Options` attribute
  declarations in `Main` and `Options.cs`. Only the output-path trim is
  modelled.
- Crawler.CrawlUri: termination is shown only for an environment whose
  redirect targets lie in a finite set `U`. The source needs no such bound.
  A site that redirects through infinitely many fresh URIs would not
  terminate in either.
- Crawler.CrawlUri: every `Location` is taken to be an absolute URI. In
  the source, a relative `Location` is still claimed and counted as
  discovered (Crawler.cs:164, 70-76). It then throws
  `InvalidOperationException` at `entryPoint.Host` (Crawler.cs:103), or
  inside the cache hook at `uri.AbsolutePath` (Program.cs:97). Both are
  outside every `try`, so the exception escapes like the missing-`Location`
  case. The model has no outcome for this.
- Crawler.CrawlUri: a link that `new Uri(base, s)` rejects (Crawler.cs:204)
  has no outcome in the model. In the source the `UriFormatException` is
  raised while `Task.WhenAll` (Crawler.cs:145 or 96) enumerates the
  children. Siblings before the bad link have started and keep running
  unawaited; later siblings never start. Under a fetched parent, the
  generic catch (Crawler.cs:166-175) counts an error and a second finish
  and drops the parent's own result. Under a parent the cache answered,
  the exception passes on to that parent's caller.
- CrawlerProperties.PageParent: does not cover a rejected link among the
  children. In the source the page then returns nothing and is finished
  twice, as when its text cannot be decoded.
- CrawlerProperties.UriCounted: the bound "finished exceeds discovered by
  at most `undecoded`" does not cover a rejected link. Each fetched parent
  that catches one is finished twice, so in the source finished can exceed
  discovered plus `undecoded` by one for each such parent.
- CrawlerProperties.ChildrenCounted: the same gap, over a list of children.
- CrawlerProperties.Balanced: the same gap. A rejected link can make the
  call throw, or make finished exceed discovered plus `undecoded`.
- CrawlerProperties.CrawlGuarantees: the same gap, and a rejected link
  under cache-answered pages up to the entry escapes the crawl, leaving the
  busy flag set.
- CrawlerProperties.FirstCrawlCounters: the same gap.
- LocalPaths.MediaSubtype: its contract says only that the suffix holds no
  `/`. That it is the text after the last `/` is `Text.LastAfter`'s
  contract, which it calls. Repeating it here would add nothing and would
  slow every proof about `DetermineLocalFilePath`.
- LocalPaths.SiteNameInjective: ports are naturals. .NET gives `Uri.Port`
  as -1 for a scheme with no default port, such as a `mailto:` link the
  expression picks up. The source then names the cache directory
  `host--1` (Program.cs:100), so host `a` with port -1 and host `a-` with
  port 1 would share a directory.

=== FILE: basics.dfy ===
/** Small shared vocabulary: optional values (the source's nullable
    references), bytes, and the unsigned 32-bit integer of the depth budget. */
module Basics {

  /** A value that may be absent; stands for a C# nullable (`string?`, `bool?`, `Uri?`). */
  datatype Option<+T> = None | Some(value: T)

  /** One octet of a fetched payload. */
  newtype byte = x: int | 0 <= x < 256

  /** C# `uint`: the type of the crawl depth. Subtracting below zero is a
      type error here, so every `depth - 1` in the model carries a proof
      that it cannot wrap around. */
  newtype uint32 = x: int | 0 <= x < 0x1_0000_0000

  /** No element occurs twice. */
  predicate Distinct<T(==)>(xs: seq<T>) {
    forall i, j :: 0 <= i < j < |xs| ==> xs[i] != xs[j]
  }
}

=== FILE: classifier.dfy ===
/** The content classifier: decides whether a fetched resource is text and
    therefore worth searching for links. */
module Classifier {
  import opened Basics
  import opened Text

  /** The fixed allow-list of text extensions (compared ignoring case). */
  const KnownTextFileExtensions: seq<string> :=
    ["txt", "html", "css", "js", "php", "aspx", "asp", "htm", "xml", "jsp"]

  /** Some entry of `exts` equals `ext`, ignoring case; the `foreach` over
      the allow-list that returns on the first hit. */
  function AnyEqualsIgnoreCase(ext: string, exts: seq<string>): (r: bool)
    ensures r <==> exists k :: k in exts && EqualsIgnoreCase(ext, k)
  {
    if |exts| == 0 then false
    else if EqualsIgnoreCase(ext, exts[0]) then true
    else
      assert exts == [exts[0]] + exts[1..];
      AnyEqualsIgnoreCase(ext, exts[1..])
  }

  /** `ext` is on the allow-list, ignoring case. */
  predicate IsKnownTextExtension(ext: string) {
    AnyEqualsIgnoreCase(ext, KnownTextFileExtensions)
  }

  /** `absolute.Split('/').Last().Split('.').Last()`: the text after the last
      `.` of the last `/`-segment. When that segment has no dot the whole
      segment comes back; when the path ends in `/` the result is empty.
      That is the longest suffix of the path holding neither `/` nor `.`. */
  function SegmentExtension(absPath: string): (r: string)
    ensures '/' !in r && '.' !in r
  {
    var seg := LastAfter(absPath, '/');
    var r := LastAfter(seg, '.');
    SuffixOfSuffix(absPath, seg, r, '/');
    r
  }

  /** The extension is a tail of the path, cut at a `/` or a `.` unless it
      is the whole path. */
  lemma SegmentExtensionIsTail(absPath: string)
    ensures var r := SegmentExtension(absPath);
      && |r| <= |absPath| && r == absPath[|absPath| - |r|..]
      && (|r| < |absPath| ==> absPath[|absPath| - |r| - 1] in {'/', '.'})
  {
    var seg := LastAfter(absPath, '/');
    SuffixOfSuffix(absPath, seg, SegmentExtension(absPath), '/');
  }

  /** A suffix `r` of a suffix `t` of `s` is a suffix of `s`; the character
      before it is the same in both; a character `t` lacks, `r` lacks. */
  lemma SuffixOfSuffix(s: string, t: string, r: string, c: char)
    requires |t| <= |s| && t == s[|s| - |t|..]
    requires |r| <= |t| && r == t[|t| - |r|..]
    requires c !in t
    ensures r == s[|s| - |r|..] && c !in r
    ensures |r| < |t| ==> s[|s| - |r| - 1] == t[|t| - |r| - 1]
  {
    assert forall k :: 0 <= k < |r| ==> r[k] == t[|t| - |r| + k];
  }

  /** `IsTextFile`: true when the declared media type mentions "text" in any
      case, otherwise when the segment extension is a known text extension. */
  function IsTextFile(mime: Option<string>, absPath: string): (r: bool)
    ensures r <==>
      || (mime.Some? && exists i: nat :: OccursAt(mime.value, i, "text"))
      || (exists k :: k in KnownTextFileExtensions && EqualsIgnoreCase(SegmentExtension(absPath), k))
  {
    if mime.Some? && ContainsIgnoreCase(mime.value, "text") then true
    else IsKnownTextExtension(SegmentExtension(absPath))
  }

  /** A media type that mentions "text" (in any case, anywhere) makes the
      resource text whatever its path. */
  lemma TextMediaIsText(mime: string, i: nat, absPath: string)
    requires i + 4 <= |mime| && EqualsIgnoreCase(mime[i..i + 4], "text")
    ensures IsTextFile(Some(mime), absPath)
  {
    assert OccursAt(mime, i, "text");
  }

  /** The segment extension is the text after the last dot of the last
      segment: `dir/stem.ext` gives `ext`. */
  lemma SegmentExtensionAfterDot(dir: string, stem: string, ext: string)
    requires '/' !in stem && '/' !in ext && '.' !in ext
    ensures SegmentExtension(dir + "/" + stem + "." + ext) == ext
  {
    assert dir + "/" + stem + "." + ext == dir + ['/'] + (stem + "." + ext);
    assert '/' !in stem + "." + ext by {
      forall k | 0 <= k < |stem + "." + ext|
        ensures (stem + "." + ext)[k] != '/'
      {
        if k < |stem| {
          assert (stem + "." + ext)[k] == stem[k];
        } else if k > |stem| {
          assert (stem + "." + ext)[k] == ext[k - |stem| - 1];
        }
      }
    }
    LastAfterSuffix(dir, '/', stem + "." + ext);
    assert stem + "." + ext == stem + ['.'] + ext;
    LastAfterSuffix(stem, '.', ext);
  }

  /** A last segment without a dot is compared whole: `/docs/html` is text
      even without a media type. */
  lemma WholeSegmentWithoutDot(dir: string, segment: string)
    requires '/' !in segment && '.' !in segment
    ensures SegmentExtension(dir + "/" + segment) == segment
  {
    assert dir + "/" + segment == dir + ['/'] + segment;
    LastAfterSuffix(dir, '/', segment);
    LastAfterNone(segment, '.');
  }

  /** A last segment without a dot that is itself a known extension makes
      the path text even without a media type. */
  lemma WholeSegmentIsText(dir: string, segment: string)
    requires '/' !in segment && '.' !in segment && IsKnownTextExtension(segment)
    ensures IsTextFile(None, dir + "/" + segment)
  {
    WholeSegmentWithoutDot(dir, segment);
  }

  /** Consequence: `/docs/html` with no media type is classified as text. */
  lemma DocsHtmlIsText(absPath: string)
    requires absPath == "/docs/html"
    ensures IsTextFile(None, absPath)
  {
    var dir, segment := absPath[..5], absPath[6..];
    assert segment == KnownTextFileExtensions[1];
    assert '/' !in segment && '.' !in segment;
    assert EqualsIgnoreCase(segment, KnownTextFileExtensions[1]);
    assert absPath == dir + "/" + segment;
    WholeSegmentIsText(dir, segment);
  }

  /** A path ending in `/` has an empty last segment, and the empty string is
      not a known extension, so only the media type can make it text. */
  lemma TrailingSlashNeedsTextMedia(mime: Option<string>, absPath: string)
    requires EndsWith(absPath, '/')
    requires mime.None? || !ContainsIgnoreCase(mime.value, "text")
    ensures !IsTextFile(mime, absPath)
  {
    assert LastAfter(absPath, '/') == "";
    assert SegmentExtension(absPath) == "";
    forall k | k in KnownTextFileExtensions
      ensures !EqualsIgnoreCase("", k)
    {
    }
  }
}

=== FILE: crawler.dfy ===
/** The traversal engine: `CrawlAsync`, `InternalCrawlAsync` and
    `DiscoverTasks`. The network, the cache hook and URI resolution are
    oracles held in an environment; the crawler's mutable fields are an
    explicit state threaded through the calls. Children run one after the
    other, to completion, in the order their links appear: one fixed
    schedule of what the source starts concurrently. */
module Crawler {
  import opened Basics
  import opened Records
  import opened Classifier
  import opened Links

  /** What one GET gives back, as the crawler sees it: a success with the
      payload, its text and its declared media type, where the text is
      `None` when `ReadAsStringAsync` throws (a `charset` it cannot decode);
      a redirect status
      (raised by `EnsureSuccessStatusCode`) with the `Location` header if
      there is one; or any other failure (network error, timeout, other
      status). */
  datatype FetchOutcome =
    | Success(data: seq<byte>, text: Option<string>, mime: Option<string>)
    | Redirect(code: int, location: Option<Uri>)
    | Failure

  /** The crawler's configuration and its oracles.
      - `fetch(u, follow)`: the response of a client built with automatic
        redirects on (`follow`) or off;
      - `cache`: the optional cache hook;
      - `resolve(base, s)`: `new Uri(base, s)`. */
  datatype Env = Env(
    followRedirect: bool,
    fetch: (Uri, bool) -> FetchOutcome,
    cache: Option<Uri -> ContentRequestResponse>,
    resolve: (Uri, string) -> Uri)

  /** The crawler's mutable fields: the claimed URIs (`_tasks`), the
      per-host clients (`_clients`, reduced to their redirect mode), the four
      public counters, the busy flag (`_isCrawling`), and two counters the
      source does not have: `unlocated`, how many redirects without a
      `Location` were met, and `undecoded`, how many searched pages had a
      text that could not be decoded. */
  datatype State = State(
    claimed: set<Uri>,
    clients: map<string, bool>,
    discovered: nat,
    finished: nat,
    errors: nat,
    externallyResolved: nat,
    unlocated: nat,
    undecoded: nat,
    busy: bool)

  /** A fresh crawler. */
  function Initial(): (st: State)
    ensures st.claimed == {} && st.clients == map[] && !st.busy
    ensures st.discovered == st.finished == st.errors == st.externallyResolved == st.unlocated == st.undecoded == 0
  {
    State({}, map[], 0, 0, 0, 0, 0, 0, false)
  }

  /** How one call of the internal crawl ends: with its results, or with
      the exception raised for a redirect without `Location` (status `code`
      at `at`). */
  datatype Run = Returned(results: seq<CrawlResult>) | Threw(at: Uri, code: int)

  /** A run and the state after it. */
  datatype Crawled = Crawled(run: Run, st: State)

  /** How a public crawl ends: its results; the refusal of a second crawl on
      a busy instance (`NotSupportedException`); the refusal of depth 0
      (`ArgumentOutOfRangeException`); or the escaped redirect exception. */
  datatype Outcome = Done(results: seq<CrawlResult>) | Busy | ZeroDepth | Failed(at: Uri, code: int)

  // The counter updates of the source, one per site.

  /** A URI enters `_tasks`: discovered. For a URI not yet claimed the
      claimed set and the discovered count grow together by one; nothing
      else changes. */
  function Claim(st: State, u: Uri): (st': State)
    ensures u in st'.claimed && st.claimed <= st'.claimed && st'.discovered == st.discovered + 1
    ensures u !in st.claimed ==> |st'.claimed| == |st.claimed| + 1
    ensures st' == st.(claimed := st'.claimed, discovered := st'.discovered)
  {
    st.(claimed := st.claimed + {u}, discovered := st.discovered + 1)
  }

  /** The cache answered: finished and externally resolved. */
  function ResolvedExternally(st: State): State {
    st.(finished := st.finished + 1, externallyResolved := st.externallyResolved + 1)
  }

  /** A fetch succeeded or a redirect was followed: finished. */
  function Finish(st: State): State {
    st.(finished := st.finished + 1)
  }

  /** The error tail of the internal crawl: error and finished. */
  function RecordError(st: State): State {
    st.(errors := st.errors + 1, finished := st.finished + 1)
  }

  /** A searched page whose text cannot be decoded: the exception from
      `ReadAsStringAsync` comes after the page was finished, so the error
      tail finishes it a second time. */
  function Undecodable(st: State): State {
    RecordError(st).(undecoded := st.undecoded + 1)
  }

  /** The client for a host is created on first use, with the crawler's
      redirect mode, and reused afterwards. */
  function EnsureClient(st: State, host: string, follow: bool): (st': State)
    ensures host in st'.clients
    ensures st'.clients.Keys == st.clients.Keys + {host}
    ensures forall h :: h in st.clients ==> st'.clients[h] == st.clients[h]
    ensures host !in st.clients ==> st'.clients[host] == follow
    ensures st' == st.(clients := st'.clients)
  {
    if host in st.clients then st else st.(clients := st.clients[host := follow])
  }

  /** `new Uri(base, s)` applied to each link, in order. */
  function ResolveAll(env: Env, base: Uri, links: seq<string>): (us: seq<Uri>)
    ensures |us| == |links|
    ensures forall k :: 0 <= k < |links| ==> us[k] == env.resolve(base, links[k])
  {
    if |links| == 0 then [] else [env.resolve(base, links[0])] + ResolveAll(env, base, links[1..])
  }

  /** `DiscoverTasks`: the URIs the links of `content` point to, resolved
      against the page they were found on, in match order. */
  function Discover(env: Env, content: string, base: Uri): (us: seq<Uri>)
    ensures |us| == |ExtractLinks(content)|
    ensures forall k :: 0 <= k < |us| ==> us[k] == env.resolve(base, ExtractLinks(content)[k])
  {
    ResolveAll(env, base, ExtractLinks(content))
  }

  /** Every redirect target the network can name lies in `U`. The source
      needs no such bound; the model needs it to show that a crawl ends,
      because a redirect keeps the depth and only claims one more URI. */
  ghost predicate RedirectsWithin(env: Env, U: set<Uri>) {
    forall v, follow ::
      env.fetch(v, follow).Redirect? && env.fetch(v, follow).location.Some? ==>
        env.fetch(v, follow).location.value in U
  }

  /** The redirect measure: unclaimed URIs of `U`, plus one while `u`
      itself lies outside `U`. */
  function Pending(U: set<Uri>, claimed: set<Uri>, u: Uri): nat {
    |U - claimed| + (if u in U then 0 else 1)
  }

  /** Claiming `u` and moving on to a target inside `U` lowers the measure. */
  lemma ClaimLowersPending(U: set<Uri>, claimed: set<Uri>, u: Uri, target: Uri)
    requires u !in claimed && target in U
    ensures Pending(U, claimed + {u}, target) < Pending(U, claimed, u)
  {
    if u in U {
      assert U - (claimed + {u}) == (U - claimed) - {u};
      assert u in U - claimed;
    } else {
      assert U - (claimed + {u}) == U - claimed;
    }
  }

  /** The results of two sibling runs as `Task.WhenAll` delivers them: the
      first exception if either threw, else the concatenation. All siblings
      have run by then, whether or not one threw. */
  function Join(first: Run, rest: Run): (r: Run)
    ensures r.Threw? <==> first.Threw? || rest.Threw?
    ensures first.Threw? ==> r == first
    ensures first.Returned? && rest.Threw? ==> r == rest
    ensures r.Returned? ==> r.results == first.results + rest.results
  {
    if first.Threw? then first
    else if rest.Threw? then rest
    else Returned(first.results + rest.results)
  }

  /** `InternalCrawlAsync(u, depth, forceDiscover)`. */
  function CrawlUri(env: Env, ghost U: set<Uri>, st: State, u: Uri, depth: uint32, forceDiscover: bool): (out: Crawled)
    requires RedirectsWithin(env, U) && depth >= 1
    ensures st.claimed <= out.st.claimed && u in out.st.claimed
    ensures out.st.busy == st.busy
    ensures u in st.claimed ==> out == Crawled(Returned([]), st)
    decreases depth, 0, Pending(U, st.claimed, u), 1
  {
    if u in st.claimed then Crawled(Returned([]), st)
    else
      var st1 := Claim(st, u);
      if env.cache.Some? && env.cache.value(u).skip then
        var answer := env.cache.value(u);
        var st2 := ResolvedExternally(st1);
        if depth == 1 || answer.content.None? || (!forceDiscover && answer.isTextFile != Some(true)) then
          Crawled(Returned([]), st2)
        else
          CrawlChildren(env, U, st2, Discover(env, answer.content.value, u), depth - 1, forceDiscover)
      else
        var st2 := EnsureClient(st1, u.host, env.followRedirect);
        match env.fetch(u, st2.clients[u.host])
        case Success(data, text, mime) =>
          FetchedPage(env, U, st2, u, depth, forceDiscover, data, text, mime)
        case Redirect(code, location) =>
          if env.followRedirect && (code == 301 || code == 302) then
            if location.None? then
              Crawled(Threw(u, code), st2.(unlocated := st2.unlocated + 1))
            else
              ClaimLowersPending(U, st.claimed, u, location.value);
              CrawlUri(env, U, Finish(st2), location.value, depth, forceDiscover)
          else
            Crawled(Returned([]), RecordError(st2))
        case Failure =>
          Crawled(Returned([]), RecordError(st2))
  }

  /** The rest of the internal crawl once the GET for `u` succeeded: the
      page is finished and returned alone when it is not searched;
      otherwise its text is read, and its links are crawled one level
      deeper. */
  function FetchedPage(env: Env, ghost U: set<Uri>, st: State, u: Uri, depth: uint32, forceDiscover: bool,
                       data: seq<byte>, text: Option<string>, mime: Option<string>): (out: Crawled)
    requires RedirectsWithin(env, U) && depth >= 1
    ensures st.claimed <= out.st.claimed && out.st.busy == st.busy
    ensures out.run.Returned?
    ensures |out.run.results| > 0 ==> out.run.results[0] == CrawlResult(u, data, mime)
    decreases depth, 0, 0, 0
  {
    var self := CrawlResult(u, data, mime);
    var st3 := Finish(st);
    if depth == 1 || (!forceDiscover && !IsTextFile(mime, u.path)) then
      Crawled(Returned([self]), st3)
    else if text.None? then
      Crawled(Returned([]), Undecodable(st3))
    else
      var children := CrawlChildren(env, U, st3, Discover(env, text.value, u), depth - 1, forceDiscover);
      if children.run.Threw? then Crawled(Returned([]), RecordError(children.st))
      else Crawled(Returned([self] + children.run.results), children.st)
  }

  /** The children of one page, crawled in order at the children's depth;
      `Task.WhenAll` joins their runs. */
  function CrawlChildren(env: Env, ghost U: set<Uri>, st: State, links: seq<Uri>, depth: uint32, forceDiscover: bool): (out: Crawled)
    requires RedirectsWithin(env, U) && depth >= 1
    ensures st.claimed <= out.st.claimed && out.st.busy == st.busy
    ensures forall k :: 0 <= k < |links| ==> links[k] in out.st.claimed
    decreases depth, 1, |links|, 0
  {
    if |links| == 0 then Crawled(Returned([]), st)
    else
      var first := CrawlUri(env, U, st, links[0], depth, forceDiscover);
      var rest := CrawlChildren(env, U, first.st, links[1..], depth, forceDiscover);
      assert forall k :: 1 <= k < |links| ==> links[k] == links[1..][k - 1];
      Crawled(Join(first.run, rest.run), rest.st)
  }

  /** `CrawlAsync(entryPoint, forceDiscover, depth)`: refuse a busy instance,
      then depth 0, before anything is claimed; otherwise crawl with the busy
      flag set and clear it on return. An escaping exception leaves the flag
      set. The claimed set, clients and counters carry over from earlier
      crawls of the same instance. */
  function CrawlAsync(env: Env, ghost U: set<Uri>, st: State, entry: Uri, forceDiscover: bool, depth: uint32): (out: (Outcome, State))
    requires RedirectsWithin(env, U)
    ensures st.busy ==> out == (Busy, st)
    ensures !st.busy && depth == 0 ==> out == (ZeroDepth, st)
    ensures out.0.Done? ==> !out.1.busy
    ensures out.0.Failed? ==> out.1.busy
    ensures !st.busy && depth >= 1 ==> st.claimed + {entry} <= out.1.claimed
  {
    if st.busy then (Busy, st)
    else if depth == 0 then (ZeroDepth, st)
    else
      var crawled := CrawlUri(env, U, st.(busy := true), entry, depth, forceDiscover);
      match crawled.run
      case Returned(results) => (Done(results), crawled.st.(busy := false))
      case Threw(at, code) => (Failed(at, code), crawled.st)
  }
}

=== FILE: crawler_lemmas.dfy ===
/** What the traversal engine guarantees: how its counters pair up, what
    its results are, how it treats the per-host clients, and how far a crawl
    of depth one can reach. */
module CrawlerProperties {
  import opened Basics
  import opened Records
  import opened Classifier
  import opened Crawler

  // ---------------------------------------------------------------------
  // Counters

  /** How the counters move between `st` and `st'` over a run:
      - each newly claimed URI was counted as discovered once;
      - no counter goes down;
      - finished overtakes discovered by at most one per page whose text
        could not be decoded, and by one less when the run threw;
      - every discovered URI was finished, except for redirects without a
        `Location`;
      - every error and every cache answer came with a finished;
      - with no redirect lacking a `Location`, the run returned, and
        finished exceeds discovered by exactly the undecoded pages. */
  ghost predicate Counted(st: State, st': State, run: Run) {
    && st.claimed <= st'.claimed
    && st'.discovered == st.discovered + |st'.claimed - st.claimed|
    && st.finished <= st'.finished && st.errors <= st'.errors
    && st.externallyResolved <= st'.externallyResolved && st.unlocated <= st'.unlocated
    && st.undecoded <= st'.undecoded
    && (st'.finished - st.finished) + (if run.Threw? then 1 else 0)
         <= (st'.discovered - st.discovered) + (st'.undecoded - st.undecoded)
    && st'.discovered - st.discovered <= (st'.finished - st.finished) + (st'.unlocated - st.unlocated)
    && (st'.errors - st.errors) + (st'.externallyResolved - st.externallyResolved) <= st'.finished - st.finished
    && (st'.unlocated == st.unlocated ==>
          && run.Returned?
          && st'.finished - st.finished == (st'.discovered - st.discovered) + (st'.undecoded - st.undecoded))
  }

  /** New claims over two stretches add up. */
  lemma ClaimsAdd(a: set<Uri>, b: set<Uri>, c: set<Uri>)
    requires a <= b <= c
    ensures |c - a| == |b - a| + |c - b|
  {
    assert c - a == (b - a) + (c - b);
    assert (b - a) * (c - b) == {};
  }

  /** Claiming `u` first counts for one. */
  lemma ClaimFirst(a: set<Uri>, u: Uri, c: set<Uri>)
    requires u !in a && a + {u} <= c
    ensures |c - a| == 1 + |c - (a + {u})|
  {
    ClaimsAdd(a, a + {u}, c);
    assert (a + {u}) - a == {u};
  }

  /** Two sibling stretches joined by `Task.WhenAll` keep the accounting. */
  lemma CountedJoin(a: State, b: State, c: State, r1: Run, r2: Run)
    requires Counted(a, b, r1) && Counted(b, c, r2)
    ensures Counted(a, c, Join(r1, r2))
  {
    ClaimsAdd(a.claimed, b.claimed, c.claimed);
  }

  // ---------------------------------------------------------------------
  // The branches of one call

  /** The cache hook answers for `u` with `Skip`. */
  predicate Answered(env: Env, u: Uri) {
    env.cache.Some? && env.cache.value(u).skip
  }

  /** A cache answer that is not searched for links: depth 1, no content,
      or a non-text answer without `forceDiscover`. */
  predicate CacheLeaf(answer: ContentRequestResponse, depth: uint32, forceDiscover: bool) {
    depth == 1 || answer.content.None? || (!forceDiscover && answer.isTextFile != Some(true))
  }

  /** A fetched page that is not searched for links: depth 1, or a non-text
      page without `forceDiscover`. */
  predicate PageLeaf(u: Uri, mime: Option<string>, depth: uint32, forceDiscover: bool) {
    depth == 1 || (!forceDiscover && !IsTextFile(mime, u.path))
  }

  /** The state once `u` is claimed and its host has a client. */
  function Opened(env: Env, st: State, u: Uri): State {
    EnsureClient(Claim(st, u), u.host, env.followRedirect)
  }

  /** The response for `u`, through the client of its host. */
  function Response(env: Env, st: State, u: Uri): FetchOutcome {
    env.fetch(u, Opened(env, st, u).clients[u.host])
  }

  /** A cache answer at depth 1, without content, or not text: nothing is
      returned, and the URI counts as finished and externally resolved. */
  lemma CachedLeaf(env: Env, U: set<Uri>, st: State, u: Uri, depth: uint32, forceDiscover: bool)
    requires RedirectsWithin(env, U) && depth >= 1
    requires u !in st.claimed && Answered(env, u) && CacheLeaf(env.cache.value(u), depth, forceDiscover)
    ensures CrawlUri(env, U, st, u, depth, forceDiscover) == Crawled(Returned([]), ResolvedExternally(Claim(st, u)))
  {
  }

  /** Otherwise the answer's links are crawled one level deeper, and only
      their results are returned. */
  lemma CachedParent(env: Env, U: set<Uri>, st: State, u: Uri, depth: uint32, forceDiscover: bool)
    requires RedirectsWithin(env, U) && depth >= 1
    requires u !in st.claimed && Answered(env, u) && !CacheLeaf(env.cache.value(u), depth, forceDiscover)
    ensures depth >= 2
    ensures CrawlUri(env, U, st, u, depth, forceDiscover)
         == CrawlChildren(env, U, ResolvedExternally(Claim(st, u)), Discover(env, env.cache.value(u).content.value, u), depth - 1, forceDiscover)
  {
  }

  /** A fetched page that is not searched yields exactly itself. */
  lemma PageAlone(env: Env, U: set<Uri>, st: State, u: Uri, depth: uint32, forceDiscover: bool)
    requires RedirectsWithin(env, U) && depth >= 1
    requires u !in st.claimed && !Answered(env, u) && Response(env, st, u).Success?
    requires PageLeaf(u, Response(env, st, u).mime, depth, forceDiscover)
    ensures CrawlUri(env, U, st, u, depth, forceDiscover)
         == Crawled(Returned([CrawlResult(u, Response(env, st, u).data, Response(env, st, u).mime)]), Finish(Opened(env, st, u)))
  {
  }

  /** A fetched page that is searched: if its text cannot be decoded, it
      takes the error path, finished a second time, and yields nothing;
      otherwise it yields itself followed by its children's results, in
      link order, and if a child threw it takes the error path instead and
      yields nothing. */
  lemma PageParent(env: Env, U: set<Uri>, st: State, u: Uri, depth: uint32, forceDiscover: bool)
    requires RedirectsWithin(env, U) && depth >= 1
    requires u !in st.claimed && !Answered(env, u) && Response(env, st, u).Success?
    requires !PageLeaf(u, Response(env, st, u).mime, depth, forceDiscover)
    ensures depth >= 2
    ensures var o := Response(env, st, u);
            var mid := Finish(Opened(env, st, u));
            CrawlUri(env, U, st, u, depth, forceDiscover)
              == if o.text.None? then Crawled(Returned([]), Undecodable(mid))
                 else
                   var c := CrawlChildren(env, U, mid, Discover(env, o.text.value, u), depth - 1, forceDiscover);
                   if c.run.Threw? then Crawled(Returned([]), RecordError(c.st))
                   else Crawled(Returned([CrawlResult(u, o.data, o.mime)] + c.run.results), c.st)
  {
    if Response(env, st, u).text.None? {
      PageUndecoded(env, U, st, u, depth, forceDiscover);
    } else {
      PageDecoded(env, U, st, u, depth, forceDiscover);
    }
  }

  /** The searched page whose text cannot be decoded. */
  lemma PageUndecoded(env: Env, U: set<Uri>, st: State, u: Uri, depth: uint32, forceDiscover: bool)
    requires RedirectsWithin(env, U) && depth >= 1
    requires u !in st.claimed && !Answered(env, u) && Response(env, st, u).Success?
    requires !PageLeaf(u, Response(env, st, u).mime, depth, forceDiscover) && Response(env, st, u).text.None?
    ensures CrawlUri(env, U, st, u, depth, forceDiscover) == Crawled(Returned([]), Undecodable(Finish(Opened(env, st, u))))
  {
  }

  /** The searched page whose text is decoded. */
  lemma PageDecoded(env: Env, U: set<Uri>, st: State, u: Uri, depth: uint32, forceDiscover: bool)
    requires RedirectsWithin(env, U) && depth >= 1
    requires u !in st.claimed && !Answered(env, u) && Response(env, st, u).Success?
    requires !PageLeaf(u, Response(env, st, u).mime, depth, forceDiscover) && Response(env, st, u).text.Some?
    ensures depth >= 2
    ensures var o := Response(env, st, u);
            var c := CrawlChildren(env, U, Finish(Opened(env, st, u)), Discover(env, o.text.value, u), depth - 1, forceDiscover);
            CrawlUri(env, U, st, u, depth, forceDiscover)
              == if c.run.Threw? then Crawled(Returned([]), RecordError(c.st))
                 else Crawled(Returned([CrawlResult(u, o.data, o.mime)] + c.run.results), c.st)
  {
  }

  /** A followed 301 or 302 with a `Location` finishes the hop and crawls
      the target at the same depth. */
  lemma RedirectFollowed(env: Env, U: set<Uri>, st: State, u: Uri, depth: uint32, forceDiscover: bool)
    requires RedirectsWithin(env, U) && depth >= 1
    requires u !in st.claimed && !Answered(env, u)
    requires Response(env, st, u).Redirect? && Response(env, st, u).location.Some?
    requires env.followRedirect && Response(env, st, u).code in {301, 302}
    ensures CrawlUri(env, U, st, u, depth, forceDiscover)
         == CrawlUri(env, U, Finish(Opened(env, st, u)), Response(env, st, u).location.value, depth, forceDiscover)
  {
  }

  /** A followed 301 or 302 without a `Location` throws. */
  lemma RedirectUnlocated(env: Env, U: set<Uri>, st: State, u: Uri, depth: uint32, forceDiscover: bool)
    requires RedirectsWithin(env, U) && depth >= 1
    requires u !in st.claimed && !Answered(env, u)
    requires Response(env, st, u).Redirect? && Response(env, st, u).location.None?
    requires env.followRedirect && Response(env, st, u).code in {301, 302}
    ensures CrawlUri(env, U, st, u, depth, forceDiscover)
         == Crawled(Threw(u, Response(env, st, u).code), Opened(env, st, u).(unlocated := Opened(env, st, u).unlocated + 1))
  {
  }

  /** Any other response, including a redirect that is not followed, is an
      error: nothing is returned. */
  lemma FetchFailed(env: Env, U: set<Uri>, st: State, u: Uri, depth: uint32, forceDiscover: bool)
    requires RedirectsWithin(env, U) && depth >= 1
    requires u !in st.claimed && !Answered(env, u)
    requires Response(env, st, u).Failure?
          || (Response(env, st, u).Redirect? && !(env.followRedirect && Response(env, st, u).code in {301, 302}))
    ensures CrawlUri(env, U, st, u, depth, forceDiscover) == Crawled(Returned([]), RecordError(Opened(env, st, u)))
  {
  }

  /** A list of children: the first runs, then the rest from the state it
      left, and `Task.WhenAll` joins the two runs. */
  lemma ChildrenStep(env: Env, U: set<Uri>, st: State, links: seq<Uri>, depth: uint32, forceDiscover: bool)
    requires RedirectsWithin(env, U) && depth >= 1 && |links| > 0
    ensures var first := CrawlUri(env, U, st, links[0], depth, forceDiscover);
            var rest := CrawlChildren(env, U, first.st, links[1..], depth, forceDiscover);
            CrawlChildren(env, U, st, links, depth, forceDiscover) == Crawled(Join(first.run, rest.run), rest.st)
  {
  }

  // ---------------------------------------------------------------------
  // Composing the accounting

  /** Claiming one new URI adds one to the claimed set. */
  lemma OneClaim(a: set<Uri>, u: Uri)
    requires u !in a
    ensures |(a + {u}) - a| == 1
  {
    assert (a + {u}) - a == {u};
  }

  /** `mid` is `st` once a call has claimed `u` and finished it, maybe
      through the cache, before handing over to a nested run. */
  predicate Opens(st: State, mid: State, u: Uri) {
    && u !in st.claimed && mid.claimed == st.claimed + {u}
    && mid.discovered == st.discovered + 1 && mid.finished == st.finished + 1
    && mid.errors == st.errors && mid.unlocated == st.unlocated && mid.undecoded == st.undecoded
    && st.externallyResolved <= mid.externallyResolved <= st.externallyResolved + 1
  }

  /** A call that claims `u`, finishes it (maybe through the cache) and
      then hands over to a nested run keeps the accounting of that run. */
  lemma PrefixCounted(st: State, mid: State, end: State, run: Run, u: Uri)
    requires Opens(st, mid, u)
    requires Counted(mid, end, run)
    ensures Counted(st, end, run)
  {
    ClaimFirst(st.claimed, u, end.claimed);
  }

  /** The response for `u` is a redirect the crawler follows to a target. */
  predicate Hop(env: Env, st: State, u: Uri) {
    && Response(env, st, u).Redirect? && Response(env, st, u).location.Some?
    && env.followRedirect && Response(env, st, u).code in {301, 302}
  }

  /** A searched page: its children's accounting carries over, whether
      they returned or threw. */
  lemma ParentStepCounted(st: State, mid: State, end: State, run: Run, u: Uri, self: CrawlResult)
    requires Opens(st, mid, u) && mid.externallyResolved == st.externallyResolved
    requires Counted(mid, end, run)
    ensures run.Threw? ==> Counted(st, RecordError(end), Returned([]))
    ensures run.Returned? ==> Counted(st, end, Returned([self] + run.results))
  {
    ClaimFirst(st.claimed, u, end.claimed);
  }

  /** The accounting holds for every call of the internal crawl. */
  lemma {:induction false} UriCounted(env: Env, U: set<Uri>, st: State, u: Uri, depth: uint32, forceDiscover: bool)
    requires RedirectsWithin(env, U) && depth >= 1
    ensures Counted(st, CrawlUri(env, U, st, u, depth, forceDiscover).st, CrawlUri(env, U, st, u, depth, forceDiscover).run)
    decreases depth, 0, Pending(U, st.claimed, u), 2
  {
    if u !in st.claimed {
      if Answered(env, u) && CacheLeaf(env.cache.value(u), depth, forceDiscover) {
        OneClaim(st.claimed, u);
        CachedLeaf(env, U, st, u, depth, forceDiscover);
      } else if Answered(env, u) {
        CachedCounted(env, U, st, u, depth, forceDiscover);
      } else if Response(env, st, u).Success? {
        PageCounted(env, U, st, u, depth, forceDiscover);
      } else if Hop(env, st, u) {
        HopCounted(env, U, st, u, depth, forceDiscover);
      } else {
        EndCounted(env, U, st, u, depth, forceDiscover);
      }
    }
  }

  /** The accounting of a cache answer whose links are crawled. */
  lemma {:induction false} CachedCounted(env: Env, U: set<Uri>, st: State, u: Uri, depth: uint32, forceDiscover: bool)
    requires RedirectsWithin(env, U) && depth >= 1 && u !in st.claimed && Answered(env, u)
    requires !CacheLeaf(env.cache.value(u), depth, forceDiscover)
    ensures Counted(st, CrawlUri(env, U, st, u, depth, forceDiscover).st, CrawlUri(env, U, st, u, depth, forceDiscover).run)
    decreases depth, 0, Pending(U, st.claimed, u), 0
  {
    CachedParent(env, U, st, u, depth, forceDiscover);
    var mid := ResolvedExternally(Claim(st, u));
    var links := Discover(env, env.cache.value(u).content.value, u);
    ChildrenCounted(env, U, mid, links, depth - 1, forceDiscover);
    var c := CrawlChildren(env, U, mid, links, depth - 1, forceDiscover);
    PrefixCounted(st, mid, c.st, c.run, u);
  }

  /** The accounting of a fetched page. */
  lemma {:induction false} PageCounted(env: Env, U: set<Uri>, st: State, u: Uri, depth: uint32, forceDiscover: bool)
    requires RedirectsWithin(env, U) && depth >= 1 && u !in st.claimed && !Answered(env, u)
    requires Response(env, st, u).Success?
    ensures Counted(st, CrawlUri(env, U, st, u, depth, forceDiscover).st, CrawlUri(env, U, st, u, depth, forceDiscover).run)
    decreases depth, 0, Pending(U, st.claimed, u), 1
  {
    OneClaim(st.claimed, u);
    if PageLeaf(u, Response(env, st, u).mime, depth, forceDiscover) {
      PageAlone(env, U, st, u, depth, forceDiscover);
    } else if Response(env, st, u).text.None? {
      PageUndecoded(env, U, st, u, depth, forceDiscover);
    } else {
      ParentCounted(env, U, st, u, depth, forceDiscover);
    }
  }

  /** The accounting of a fetched page searched for links. */
  lemma {:induction false} ParentCounted(env: Env, U: set<Uri>, st: State, u: Uri, depth: uint32, forceDiscover: bool)
    requires RedirectsWithin(env, U) && depth >= 1 && u !in st.claimed && !Answered(env, u)
    requires Response(env, st, u).Success? && !PageLeaf(u, Response(env, st, u).mime, depth, forceDiscover)
    requires Response(env, st, u).text.Some?
    ensures Counted(st, CrawlUri(env, U, st, u, depth, forceDiscover).st, CrawlUri(env, U, st, u, depth, forceDiscover).run)
    decreases depth, 0, Pending(U, st.claimed, u), 0
  {
    PageDecoded(env, U, st, u, depth, forceDiscover);
    var mid := Finish(Opened(env, st, u));
    var links := Discover(env, Response(env, st, u).text.value, u);
    ChildrenCounted(env, U, mid, links, depth - 1, forceDiscover);
    var c := CrawlChildren(env, U, mid, links, depth - 1, forceDiscover);
    ParentStepCounted(st, mid, c.st, c.run, u, CrawlResult(u, Response(env, st, u).data, Response(env, st, u).mime));
  }

  /** The accounting of a followed redirect. */
  lemma {:induction false} HopCounted(env: Env, U: set<Uri>, st: State, u: Uri, depth: uint32, forceDiscover: bool)
    requires RedirectsWithin(env, U) && depth >= 1 && u !in st.claimed && !Answered(env, u)
    requires Hop(env, st, u)
    ensures Counted(st, CrawlUri(env, U, st, u, depth, forceDiscover).st, CrawlUri(env, U, st, u, depth, forceDiscover).run)
    decreases depth, 0, Pending(U, st.claimed, u), 0
  {
    var target := Response(env, st, u).location.value;
    var mid := Finish(Opened(env, st, u));
    RedirectFollowed(env, U, st, u, depth, forceDiscover);
    ClaimLowersPending(U, st.claimed, u, target);
    UriCounted(env, U, mid, target, depth, forceDiscover);
    var c := CrawlUri(env, U, mid, target, depth, forceDiscover);
    PrefixCounted(st, mid, c.st, c.run, u);
  }

  /** The accounting of a call that ends at its own URI: an error, or a
      redirect without `Location`. */
  lemma EndCounted(env: Env, U: set<Uri>, st: State, u: Uri, depth: uint32, forceDiscover: bool)
    requires RedirectsWithin(env, U) && depth >= 1 && u !in st.claimed && !Answered(env, u)
    requires !Response(env, st, u).Success? && !Hop(env, st, u)
    ensures Counted(st, CrawlUri(env, U, st, u, depth, forceDiscover).st, CrawlUri(env, U, st, u, depth, forceDiscover).run)
  {
    OneClaim(st.claimed, u);
    var o := Response(env, st, u);
    if o.Redirect? && env.followRedirect && o.code in {301, 302} {
      RedirectUnlocated(env, U, st, u, depth, forceDiscover);
    } else {
      FetchFailed(env, U, st, u, depth, forceDiscover);
    }
  }

  /** The accounting holds for every list of children. */
  lemma {:induction false} ChildrenCounted(env: Env, U: set<Uri>, st: State, links: seq<Uri>, depth: uint32, forceDiscover: bool)
    requires RedirectsWithin(env, U) && depth >= 1
    ensures Counted(st, CrawlChildren(env, U, st, links, depth, forceDiscover).st, CrawlChildren(env, U, st, links, depth, forceDiscover).run)
    decreases depth, 1, |links|, 0
  {
    if |links| > 0 {
      var first := CrawlUri(env, U, st, links[0], depth, forceDiscover);
      var rest := CrawlChildren(env, U, first.st, links[1..], depth, forceDiscover);
      UriCounted(env, U, st, links[0], depth, forceDiscover);
      ChildrenCounted(env, U, first.st, links[1..], depth, forceDiscover);
      CountedJoin(st, first.st, rest.st, first.run, rest.run);
    }
  }

  /** With no redirect lacking a `Location`, nothing is thrown and every
      discovered URI is finished once, plus once more for each page whose
      text could not be decoded; with no such page either, finished equals
      discovered. */
  lemma Balanced(env: Env, U: set<Uri>, st: State, u: Uri, depth: uint32, forceDiscover: bool)
    requires RedirectsWithin(env, U) && depth >= 1
    requires CrawlUri(env, U, st, u, depth, forceDiscover).st.unlocated == st.unlocated
    ensures CrawlUri(env, U, st, u, depth, forceDiscover).run.Returned?
    ensures CrawlUri(env, U, st, u, depth, forceDiscover).st.finished - st.finished
         == (CrawlUri(env, U, st, u, depth, forceDiscover).st.discovered - st.discovered)
          + (CrawlUri(env, U, st, u, depth, forceDiscover).st.undecoded - st.undecoded)
  {
    UriCounted(env, U, st, u, depth, forceDiscover);
  }

  // ---------------------------------------------------------------------
  // Clients

  /** From `st` to `st'` the client map only grows, keeps every client it
      had, and creates each new one with the crawler's redirect mode. */
  ghost predicate ClientsGrow(env: Env, st: State, st': State) {
    && st.clients.Keys <= st'.clients.Keys
    && (forall h :: h in st.clients ==> st'.clients[h] == st.clients[h])
    && (forall h :: h in st'.clients && h !in st.clients ==> st'.clients[h] == env.followRedirect)
  }

  /** Every client has the crawler's redirect mode. */
  ghost predicate Uniform(env: Env, st: State) {
    forall h :: h in st.clients ==> st.clients[h] == env.followRedirect
  }

  /** Growth composes. */
  lemma ClientsGrowTrans(env: Env, a: State, b: State, c: State)
    requires ClientsGrow(env, a, b) && ClientsGrow(env, b, c)
    ensures ClientsGrow(env, a, c)
  {
  }

  /** Growth keeps a uniform map uniform. */
  lemma UniformKept(env: Env, st: State, st': State)
    requires ClientsGrow(env, st, st') && Uniform(env, st)
    ensures Uniform(env, st')
  {
  }

  /** In a uniform state, the client for `u` fetches with the crawler's
      redirect mode. */
  lemma UniformResponse(env: Env, st: State, u: Uri)
    requires Uniform(env, st)
    ensures Response(env, st, u) == env.fetch(u, env.followRedirect)
    ensures Uniform(env, Opened(env, st, u)) && ClientsGrow(env, st, Opened(env, st, u))
  {
  }

  /** The client map grows as described over every call. */
  lemma {:induction false} UriClients(env: Env, U: set<Uri>, st: State, u: Uri, depth: uint32, forceDiscover: bool)
    requires RedirectsWithin(env, U) && depth >= 1
    ensures ClientsGrow(env, st, CrawlUri(env, U, st, u, depth, forceDiscover).st)
    decreases depth, 0, Pending(U, st.claimed, u), 2
  {
    if u !in st.claimed {
      if Answered(env, u) && CacheLeaf(env.cache.value(u), depth, forceDiscover) {
        CachedLeaf(env, U, st, u, depth, forceDiscover);
      } else if Answered(env, u) {
        CachedClients(env, U, st, u, depth, forceDiscover);
      } else if Response(env, st, u).Success? {
        PageClients(env, U, st, u, depth, forceDiscover);
      } else if Hop(env, st, u) {
        HopClients(env, U, st, u, depth, forceDiscover);
      } else {
        EndClients(env, U, st, u, depth, forceDiscover);
      }
    }
  }

  /** Clients over a cache answer whose links are crawled. */
  lemma {:induction false} CachedClients(env: Env, U: set<Uri>, st: State, u: Uri, depth: uint32, forceDiscover: bool)
    requires RedirectsWithin(env, U) && depth >= 1 && u !in st.claimed && Answered(env, u)
    requires !CacheLeaf(env.cache.value(u), depth, forceDiscover)
    ensures ClientsGrow(env, st, CrawlUri(env, U, st, u, depth, forceDiscover).st)
    decreases depth, 0, Pending(U, st.claimed, u), 0
  {
    CachedParent(env, U, st, u, depth, forceDiscover);
    ChildrenClients(env, U, ResolvedExternally(Claim(st, u)), Discover(env, env.cache.value(u).content.value, u), depth - 1, forceDiscover);
  }

  /** Clients over a fetched page. */
  lemma {:induction false} PageClients(env: Env, U: set<Uri>, st: State, u: Uri, depth: uint32, forceDiscover: bool)
    requires RedirectsWithin(env, U) && depth >= 1 && u !in st.claimed && !Answered(env, u)
    requires Response(env, st, u).Success?
    ensures ClientsGrow(env, st, CrawlUri(env, U, st, u, depth, forceDiscover).st)
    decreases depth, 0, Pending(U, st.claimed, u), 1
  {
    if PageLeaf(u, Response(env, st, u).mime, depth, forceDiscover) {
      PageAlone(env, U, st, u, depth, forceDiscover);
    } else if Response(env, st, u).text.None? {
      PageUndecoded(env, U, st, u, depth, forceDiscover);
    } else {
      ParentClients(env, U, st, u, depth, forceDiscover);
    }
  }

  /** Clients over a fetched page searched for links. */
  lemma {:induction false} ParentClients(env: Env, U: set<Uri>, st: State, u: Uri, depth: uint32, forceDiscover: bool)
    requires RedirectsWithin(env, U) && depth >= 1 && u !in st.claimed && !Answered(env, u)
    requires Response(env, st, u).Success? && !PageLeaf(u, Response(env, st, u).mime, depth, forceDiscover)
    requires Response(env, st, u).text.Some?
    ensures ClientsGrow(env, st, CrawlUri(env, U, st, u, depth, forceDiscover).st)
    decreases depth, 0, Pending(U, st.claimed, u), 0
  {
    PageDecoded(env, U, st, u, depth, forceDiscover);
    var mid := Finish(Opened(env, st, u));
    var links := Discover(env, Response(env, st, u).text.value, u);
    ChildrenClients(env, U, mid, links, depth - 1, forceDiscover);
    var c := CrawlChildren(env, U, mid, links, depth - 1, forceDiscover);
    ClientsGrowTrans(env, st, mid, c.st);
    assert RecordError(c.st).clients == c.st.clients;
  }

  /** Clients over a followed redirect. */
  lemma {:induction false} HopClients(env: Env, U: set<Uri>, st: State, u: Uri, depth: uint32, forceDiscover: bool)
    requires RedirectsWithin(env, U) && depth >= 1 && u !in st.claimed && !Answered(env, u)
    requires Hop(env, st, u)
    ensures ClientsGrow(env, st, CrawlUri(env, U, st, u, depth, forceDiscover).st)
    decreases depth, 0, Pending(U, st.claimed, u), 0
  {
    var target := Response(env, st, u).location.value;
    var mid := Finish(Opened(env, st, u));
    RedirectFollowed(env, U, st, u, depth, forceDiscover);
    ClaimLowersPending(U, st.claimed, u, target);
    UriClients(env, U, mid, target, depth, forceDiscover);
    ClientsGrowTrans(env, st, mid, CrawlUri(env, U, mid, target, depth, forceDiscover).st);
  }

  /** Clients over a call that ends at its own URI. */
  lemma EndClients(env: Env, U: set<Uri>, st: State, u: Uri, depth: uint32, forceDiscover: bool)
    requires RedirectsWithin(env, U) && depth >= 1 && u !in st.claimed && !Answered(env, u)
    requires !Response(env, st, u).Success? && !Hop(env, st, u)
    ensures ClientsGrow(env, st, CrawlUri(env, U, st, u, depth, forceDiscover).st)
  {
    var o := Response(env, st, u);
    if o.Redirect? && env.followRedirect && o.code in {301, 302} {
      RedirectUnlocated(env, U, st, u, depth, forceDiscover);
    } else {
      FetchFailed(env, U, st, u, depth, forceDiscover);
    }
  }

  /** The client map grows as described over every list of children. */
  lemma {:induction false} ChildrenClients(env: Env, U: set<Uri>, st: State, links: seq<Uri>, depth: uint32, forceDiscover: bool)
    requires RedirectsWithin(env, U) && depth >= 1
    ensures ClientsGrow(env, st, CrawlChildren(env, U, st, links, depth, forceDiscover).st)
    decreases depth, 1, |links|, 0
  {
    if |links| > 0 {
      var first := CrawlUri(env, U, st, links[0], depth, forceDiscover);
      UriClients(env, U, st, links[0], depth, forceDiscover);
      ChildrenClients(env, U, first.st, links[1..], depth, forceDiscover);
      ClientsGrowTrans(env, st, first.st, CrawlChildren(env, U, first.st, links[1..], depth, forceDiscover).st);
    }
  }

  // ---------------------------------------------------------------------
  // Results

  /** A result is what the network gave for a URI the cache did not
      answer. */
  predicate Genuine(env: Env, r: CrawlResult) {
    && !Answered(env, r.uri)
    && env.fetch(r.uri, env.followRedirect).Success?
    && env.fetch(r.uri, env.followRedirect).data == r.data
    && env.fetch(r.uri, env.followRedirect).mime == r.mime
  }

  /** No two results share a URI. */
  predicate DistinctUris(rs: seq<CrawlResult>) {
    forall i, j :: 0 <= i < j < |rs| ==> rs[i].uri != rs[j].uri
  }

  /** The results of a run from `st` to `st'`, if it returned: each one is
      genuine and is for a URI the run claimed, and no URI comes twice. */
  ghost predicate Delivered(env: Env, st: State, st': State, run: Run) {
    run.Returned? ==>
      && (forall k :: 0 <= k < |run.results| ==>
            run.results[k].uri in st'.claimed - st.claimed && Genuine(env, run.results[k]))
      && DistinctUris(run.results)
  }

  /** Sibling runs deliver together: their URIs come from disjoint stretches
      of claims. */
  lemma DeliveredJoin(env: Env, a: State, b: State, c: State, r1: Run, r2: Run)
    requires a.claimed <= b.claimed <= c.claimed
    requires Delivered(env, a, b, r1) && Delivered(env, b, c, r2)
    ensures Delivered(env, a, c, Join(r1, r2))
  {
    if r1.Returned? && r2.Returned? {
      var xs, ys := r1.results, r2.results;
      var zs := xs + ys;
      forall i, j | 0 <= i < j < |zs|
        ensures zs[i].uri != zs[j].uri
      {
        if j < |xs| {
        } else if i >= |xs| {
          assert zs[i] == ys[i - |xs|] && zs[j] == ys[j - |xs|];
        } else {
          assert zs[i].uri in b.claimed && zs[j] == ys[j - |xs|];
        }
      }
      forall k | 0 <= k < |zs|
        ensures zs[k].uri in c.claimed - a.claimed && Genuine(env, zs[k])
      {
        if k >= |xs| {
          assert zs[k] == ys[k - |xs|];
        }
      }
    }
  }

  /** A nested run that starts after more claims delivers for the whole
      call too. */
  lemma DeliveredWithin(env: Env, st: State, mid: State, end: State, run: Run)
    requires st.claimed <= mid.claimed && Delivered(env, mid, end, run)
    ensures Delivered(env, st, end, run)
  {
  }

  /** A single genuine result for a URI just claimed is delivered. */
  lemma DeliveredAlone(env: Env, st: State, st': State, r: CrawlResult)
    requires r.uri in st'.claimed - st.claimed && Genuine(env, r)
    ensures Delivered(env, st, st', Returned([r]))
  {
  }

  /** A searched page delivers itself ahead of its children's results. */
  lemma DeliveredParent(env: Env, st: State, mid: State, end: State, run: Run, self: CrawlResult)
    requires st.claimed <= mid.claimed && self.uri in mid.claimed - st.claimed
    requires mid.claimed <= end.claimed && Genuine(env, self)
    requires Delivered(env, mid, end, run) && run.Returned?
    ensures Delivered(env, st, end, Returned([self] + run.results))
  {
    var zs := [self] + run.results;
    forall i, j | 0 <= i < j < |zs|
      ensures zs[i].uri != zs[j].uri
    {
      assert zs[j] == run.results[j - 1];
      if i > 0 {
        assert zs[i] == run.results[i - 1];
      }
    }
    forall k | 0 <= k < |zs|
      ensures zs[k].uri in end.claimed - st.claimed && Genuine(env, zs[k])
    {
      if k > 0 {
        assert zs[k] == run.results[k - 1];
      }
    }
  }

  /** Every call delivers, from a uniform client map. */
  lemma {:induction false} UriDelivered(env: Env, U: set<Uri>, st: State, u: Uri, depth: uint32, forceDiscover: bool)
    requires RedirectsWithin(env, U) && depth >= 1 && Uniform(env, st)
    ensures Delivered(env, st, CrawlUri(env, U, st, u, depth, forceDiscover).st, CrawlUri(env, U, st, u, depth, forceDiscover).run)
    decreases depth, 0, Pending(U, st.claimed, u), 2
  {
    if u !in st.claimed {
      UniformResponse(env, st, u);
      if Answered(env, u) && CacheLeaf(env.cache.value(u), depth, forceDiscover) {
        CachedLeaf(env, U, st, u, depth, forceDiscover);
      } else if Answered(env, u) {
        CachedDelivered(env, U, st, u, depth, forceDiscover);
      } else if Response(env, st, u).Success? {
        PageDelivered(env, U, st, u, depth, forceDiscover);
      } else if Hop(env, st, u) {
        HopDelivered(env, U, st, u, depth, forceDiscover);
      } else if Response(env, st, u).Redirect? && env.followRedirect && Response(env, st, u).code in {301, 302} {
        RedirectUnlocated(env, U, st, u, depth, forceDiscover);
      } else {
        FetchFailed(env, U, st, u, depth, forceDiscover);
      }
    }
  }

  /** Delivery over a cache answer whose links are crawled. */
  lemma {:induction false} CachedDelivered(env: Env, U: set<Uri>, st: State, u: Uri, depth: uint32, forceDiscover: bool)
    requires RedirectsWithin(env, U) && depth >= 1 && Uniform(env, st) && u !in st.claimed && Answered(env, u)
    requires !CacheLeaf(env.cache.value(u), depth, forceDiscover)
    ensures Delivered(env, st, CrawlUri(env, U, st, u, depth, forceDiscover).st, CrawlUri(env, U, st, u, depth, forceDiscover).run)
    decreases depth, 0, Pending(U, st.claimed, u), 0
  {
    CachedParent(env, U, st, u, depth, forceDiscover);
    var mid := ResolvedExternally(Claim(st, u));
    var links := Discover(env, env.cache.value(u).content.value, u);
    ChildrenDelivered(env, U, mid, links, depth - 1, forceDiscover);
    var c := CrawlChildren(env, U, mid, links, depth - 1, forceDiscover);
    DeliveredWithin(env, st, mid, c.st, c.run);
  }

  /** Delivery over a fetched page. */
  lemma {:induction false} PageDelivered(env: Env, U: set<Uri>, st: State, u: Uri, depth: uint32, forceDiscover: bool)
    requires RedirectsWithin(env, U) && depth >= 1 && Uniform(env, st) && u !in st.claimed && !Answered(env, u)
    requires Response(env, st, u).Success?
    ensures Delivered(env, st, CrawlUri(env, U, st, u, depth, forceDiscover).st, CrawlUri(env, U, st, u, depth, forceDiscover).run)
    decreases depth, 0, Pending(U, st.claimed, u), 1
  {
    UniformResponse(env, st, u);
    var o := Response(env, st, u);
    if PageLeaf(u, o.mime, depth, forceDiscover) {
      PageAlone(env, U, st, u, depth, forceDiscover);
      DeliveredAlone(env, st, Finish(Opened(env, st, u)), CrawlResult(u, o.data, o.mime));
    } else {
      ParentDelivered(env, U, st, u, depth, forceDiscover);
    }
  }

  /** Delivery over a fetched page searched for links. */
  lemma {:induction false} ParentDelivered(env: Env, U: set<Uri>, st: State, u: Uri, depth: uint32, forceDiscover: bool)
    requires RedirectsWithin(env, U) && depth >= 1 && Uniform(env, st) && u !in st.claimed && !Answered(env, u)
    requires Response(env, st, u).Success? && !PageLeaf(u, Response(env, st, u).mime, depth, forceDiscover)
    ensures Delivered(env, st, CrawlUri(env, U, st, u, depth, forceDiscover).st, CrawlUri(env, U, st, u, depth, forceDiscover).run)
    decreases depth, 0, Pending(U, st.claimed, u), 0
  {
    UniformResponse(env, st, u);
    var o := Response(env, st, u);
    var mid := Finish(Opened(env, st, u));
    if o.text.None? {
      PageUndecoded(env, U, st, u, depth, forceDiscover);
    } else {
      PageDecoded(env, U, st, u, depth, forceDiscover);
      var links := Discover(env, o.text.value, u);
      ChildrenDelivered(env, U, mid, links, depth - 1, forceDiscover);
      var c := CrawlChildren(env, U, mid, links, depth - 1, forceDiscover);
      if c.run.Returned? {
        DeliveredParent(env, st, mid, c.st, c.run, CrawlResult(u, o.data, o.mime));
      }
    }
  }

  /** Delivery over a followed redirect. */
  lemma {:induction false} HopDelivered(env: Env, U: set<Uri>, st: State, u: Uri, depth: uint32, forceDiscover: bool)
    requires RedirectsWithin(env, U) && depth >= 1 && Uniform(env, st) && u !in st.claimed && !Answered(env, u)
    requires Hop(env, st, u)
    ensures Delivered(env, st, CrawlUri(env, U, st, u, depth, forceDiscover).st, CrawlUri(env, U, st, u, depth, forceDiscover).run)
    decreases depth, 0, Pending(U, st.claimed, u), 0
  {
    var target := Response(env, st, u).location.value;
    var mid := Finish(Opened(env, st, u));
    UniformResponse(env, st, u);
    RedirectFollowed(env, U, st, u, depth, forceDiscover);
    ClaimLowersPending(U, st.claimed, u, target);
    UriDelivered(env, U, mid, target, depth, forceDiscover);
    var c := CrawlUri(env, U, mid, target, depth, forceDiscover);
    DeliveredWithin(env, st, mid, c.st, c.run);
  }

  /** Every list of children delivers, from a uniform client map. */
  lemma {:induction false} ChildrenDelivered(env: Env, U: set<Uri>, st: State, links: seq<Uri>, depth: uint32, forceDiscover: bool)
    requires RedirectsWithin(env, U) && depth >= 1 && Uniform(env, st)
    ensures Delivered(env, st, CrawlChildren(env, U, st, links, depth, forceDiscover).st, CrawlChildren(env, U, st, links, depth, forceDiscover).run)
    decreases depth, 1, |links|, 0
  {
    if |links| > 0 {
      var first := CrawlUri(env, U, st, links[0], depth, forceDiscover);
      var rest := CrawlChildren(env, U, first.st, links[1..], depth, forceDiscover);
      UriDelivered(env, U, st, links[0], depth, forceDiscover);
      UriClients(env, U, st, links[0], depth, forceDiscover);
      UniformKept(env, st, first.st);
      ChildrenDelivered(env, U, first.st, links[1..], depth, forceDiscover);
      DeliveredJoin(env, st, first.st, rest.st, first.run, rest.run);
    }
  }

  /** A URI the cache answers never appears among the results, at any
      depth: its children may, itself not. */
  lemma AnsweredNeverReturned(env: Env, U: set<Uri>, st: State, u: Uri, depth: uint32, forceDiscover: bool)
    requires RedirectsWithin(env, U) && depth >= 1 && Uniform(env, st) && Answered(env, u)
    ensures CrawlUri(env, U, st, u, depth, forceDiscover).run.Returned? ==>
      forall k :: 0 <= k < |CrawlUri(env, U, st, u, depth, forceDiscover).run.results| ==>
        CrawlUri(env, U, st, u, depth, forceDiscover).run.results[k].uri != u
  {
    UriDelivered(env, U, st, u, depth, forceDiscover);
  }

  // ---------------------------------------------------------------------
  // Depth

  /** At depth 1 nothing is searched for links: a call returns at most one
      result (`DepthOneResult` says which). */
  lemma {:induction false} DepthOne(env: Env, U: set<Uri>, st: State, u: Uri, forceDiscover: bool)
    requires RedirectsWithin(env, U)
    ensures CrawlUri(env, U, st, u, 1, forceDiscover).run.Returned? ==>
      |CrawlUri(env, U, st, u, 1, forceDiscover).run.results| <= 1
    decreases Pending(U, st.claimed, u)
  {
    if u !in st.claimed {
      if Answered(env, u) {
        CachedLeaf(env, U, st, u, 1, forceDiscover);
      } else if Response(env, st, u).Success? {
        PageAlone(env, U, st, u, 1, forceDiscover);
      } else if Hop(env, st, u) {
        var target := Response(env, st, u).location.value;
        RedirectFollowed(env, U, st, u, 1, forceDiscover);
        ClaimLowersPending(U, st.claimed, u, target);
        DepthOne(env, U, Finish(Opened(env, st, u)), target, forceDiscover);
      } else if Response(env, st, u).Redirect? && env.followRedirect && Response(env, st, u).code in {301, 302} {
        RedirectUnlocated(env, U, st, u, 1, forceDiscover);
      } else {
        FetchFailed(env, U, st, u, 1, forceDiscover);
      }
    }
  }

  /** What that one result is: a page this call claimed, which the cache did
      not answer, with the payload and media type the network gave for it. */
  lemma DepthOneResult(env: Env, U: set<Uri>, st: State, u: Uri, forceDiscover: bool)
    requires RedirectsWithin(env, U) && Uniform(env, st)
    ensures var out := CrawlUri(env, U, st, u, 1, forceDiscover);
      out.run.Returned? ==>
        && |out.run.results| <= 1
        && forall k :: 0 <= k < |out.run.results| ==>
             out.run.results[k].uri in out.st.claimed - st.claimed && Genuine(env, out.run.results[k])
  {
    DepthOne(env, U, st, u, forceDiscover);
    UriDelivered(env, U, st, u, 1, forceDiscover);
  }

  // ---------------------------------------------------------------------
  // A whole crawl

  /** What one `CrawlAsync` on an idle crawler with a positive depth
      guarantees, for the counters and results relative to where it
      started:
      - it ends with results or with the escaped redirect exception;
      - counters move as `Counted` describes;
      - each result is genuine, for a URI this crawl claimed, and no URI
        comes twice;
      - when no redirect lacked a `Location`, the crawl returned, and it
        finished what it discovered plus one for each page whose text could
        not be decoded. */
  lemma CrawlGuarantees(env: Env, U: set<Uri>, st: State, entry: Uri, forceDiscover: bool, depth: uint32)
    requires RedirectsWithin(env, U) && Uniform(env, st) && !st.busy && depth >= 1
    ensures var (outcome, st') := CrawlAsync(env, U, st, entry, forceDiscover, depth);
      && (outcome.Done? || outcome.Failed?)
      && Counted(st, st', if outcome.Done? then Returned(outcome.results) else Threw(outcome.at, outcome.code))
      && (outcome.Done? ==> Delivered(env, st, st', Returned(outcome.results)))
      && (st'.unlocated == st.unlocated ==>
            && outcome.Done?
            && st'.finished - st.finished == (st'.discovered - st.discovered) + (st'.undecoded - st.undecoded))
  {
    var running := st.(busy := true);
    UriCounted(env, U, running, entry, depth, forceDiscover);
    UriDelivered(env, U, running, entry, depth, forceDiscover);
  }

  /** A fresh crawler's first crawl: errors and cache answers never exceed
      finished, finished exceeds discovered by at most the number of pages
      whose text could not be decoded, and discovered is the number of URIs
      claimed. */
  lemma FirstCrawlCounters(env: Env, U: set<Uri>, entry: Uri, forceDiscover: bool, depth: uint32)
    requires RedirectsWithin(env, U) && depth >= 1
    ensures var st' := CrawlAsync(env, U, Initial(), entry, forceDiscover, depth).1;
      && st'.errors <= st'.finished && st'.externallyResolved <= st'.finished
      && st'.finished <= st'.discovered + st'.undecoded
      && st'.discovered == |st'.claimed|
  {
    CrawlGuarantees(env, U, Initial(), entry, forceDiscover, depth);
  }
}

=== FILE: links.dfy ===
/** The link extractor. The crawler finds links with the regular expression

      (href *=|HREF *=|src *=|SRC *=|url *\(|URL *\() *\(? *["'](.*?)["']

    and takes capture group 2 of every match, left to right. `MatchAt` below
    says declaratively what one match is; `MatchHere` and `Scan` are a
    hand-written left-to-right scanner, proved to find exactly the matches a
    leftmost, non-overlapping regex search finds. */
module Links {
  import opened Basics

  /** The six literal spellings of the first group. `Href`, `Src`, `Url`
      and other mixed-case spellings are not among them: the expression is
      case-sensitive. */
  datatype Keyword = Href | HrefCaps | Src | SrcCaps | Url | UrlCaps

  /** The keyword as it must appear in the text. */
  function Spelling(k: Keyword): string {
    match k
    case Href => "href"
    case HrefCaps => "HREF"
    case Src => "src"
    case SrcCaps => "SRC"
    case Url => "url"
    case UrlCaps => "URL"
  }

  /** What must follow the keyword after optional spaces: `=` for the
      attributes, `(` for the stylesheet function. */
  function Separator(k: Keyword): char {
    if k.Url? || k.UrlCaps? then '(' else '='
  }

  /** `["']`: either quote may open and either may close. */
  predicate IsQuote(c: char) {
    c == '"' || c == '\''
  }

  /** Characters the lazy `(.*?)` cannot run past: a quote ends it and `.`
      does not match a line feed. */
  predicate Stops(c: char) {
    IsQuote(c) || c == '\n'
  }

  /** How one match decomposes: the keyword, the three runs of literal
      spaces, whether the optional `(` is present, the two quotes and the
      captured value. */
  datatype Shape = Shape(
    keyword: Keyword, spaces1: nat, spaces2: nat, paren: bool, spaces3: nat,
    open: char, value: string, close: char)

  /** `n` literal spaces. */
  function Spaces(n: nat): (r: string)
    ensures |r| == n
  {
    if n == 0 then "" else [' '] + Spaces(n - 1)
  }

  /** The text a match of shape `m` covers, piece by piece as the expression
      reads: keyword, ` *`, `=` or `(`, ` *`, `\(?`, ` *`, quote, value, quote. */
  function Render(m: Shape): string {
    Spelling(m.keyword) + Spaces(m.spaces1) + [Separator(m.keyword)] + Spaces(m.spaces2)
      + (if m.paren then "(" else "") + Spaces(m.spaces3)
      + [m.open] + m.value + [m.close]
  }

  /** `v` holds no quote and no line feed: text the lazy group can cover. */
  predicate NoStops(v: string)
    decreases |v|
  {
    |v| == 0 || (!Stops(v[0]) && NoStops(v[1..]))
  }

  /** The shape is one the expression can produce. When the optional `(` is
      absent the two space runs around it are adjacent; the decomposition
      counts them all in `spaces2`, so that each matched text has exactly one
      shape. */
  predicate WellFormed(m: Shape) {
    && (m.paren || m.spaces3 == 0)
    && IsQuote(m.open) && IsQuote(m.close)
    && NoStops(m.value)
  }

  /** `p` occurs in `s` at offset `i`, compared character by character. */
  predicate PrefixAt(s: string, i: nat, p: string)
    decreases |s| - i
  {
    if |p| == 0 then i <= |s|
    else i < |s| && s[i] == p[0] && PrefixAt(s, i + 1, p[1..])
  }

  /** `s[a..b]` is literal spaces only (` *` matches nothing else). */
  predicate AllSpaces(s: string, a: nat, b: nat)
    decreases b - a
  {
    a <= b <= |s| && (a == b || (s[a] == ' ' && AllSpaces(s, a + 1, b)))
  }

  // Where the pieces of a match of shape `m` at offset `i` start.

  function KeywordEnd(i: nat, m: Shape): nat {
    i + |Spelling(m.keyword)|
  }

  function SeparatorAt(i: nat, m: Shape): nat {
    KeywordEnd(i, m) + m.spaces1
  }

  function ParenAt(i: nat, m: Shape): nat {
    SeparatorAt(i, m) + 1 + m.spaces2
  }

  function OpenAt(i: nat, m: Shape): nat {
    ParenAt(i, m) + (if m.paren then 1 else 0) + m.spaces3
  }

  function CloseAt(i: nat, m: Shape): nat {
    OpenAt(i, m) + 1 + |m.value|
  }

  // The pieces of a match laid out in `s`, in reading order; each stage
  // includes the ones before it.

  /** The keyword and the spaces after it. */
  predicate KeywordLaid(s: string, i: nat, m: Shape) {
    PrefixAt(s, i, Spelling(m.keyword)) && AllSpaces(s, KeywordEnd(i, m), SeparatorAt(i, m))
  }

  /** Then the separator and the spaces after it. */
  predicate SeparatorLaid(s: string, i: nat, m: Shape) {
    && KeywordLaid(s, i, m)
    && SeparatorAt(i, m) < |s| && s[SeparatorAt(i, m)] == Separator(m.keyword)
    && AllSpaces(s, SeparatorAt(i, m) + 1, ParenAt(i, m))
  }

  /** Then the optional `(` and the spaces after it. */
  predicate ParenLaid(s: string, i: nat, m: Shape) {
    && SeparatorLaid(s, i, m)
    && (m.paren ==> ParenAt(i, m) < |s| && s[ParenAt(i, m)] == '(')
    && AllSpaces(s, ParenAt(i, m) + (if m.paren then 1 else 0), OpenAt(i, m))
  }

  /** Then the opening quote and the value. */
  predicate OpenLaid(s: string, i: nat, m: Shape) {
    && ParenLaid(s, i, m)
    && OpenAt(i, m) < |s| && s[OpenAt(i, m)] == m.open
    && PrefixAt(s, OpenAt(i, m) + 1, m.value)
  }

  /** All pieces, up to the closing quote. */
  predicate Laid(s: string, i: nat, m: Shape) {
    OpenLaid(s, i, m) && CloseAt(i, m) < |s| && s[CloseAt(i, m)] == m.close
  }

  /** The expression matches `s` at offset `i` with shape `m`.
      `MatchRendered` shows this is the same as: the text at `i` is the
      rendering of a well-formed shape. */
  predicate MatchAt(s: string, i: nat, m: Shape) {
    WellFormed(m) && Laid(s, i, m)
  }

  // Facts about the character-level predicates.

  /** An occurrence lies inside `s`. */
  lemma {:induction false} PrefixAtBound(s: string, i: nat, p: string)
    requires PrefixAt(s, i, p)
    ensures i + |p| <= |s|
    decreases |p|
  {
    if |p| > 0 {
      PrefixAtBound(s, i + 1, p[1..]);
    }
  }

  /** Each character of an occurrence is in place. */
  lemma {:induction false} PrefixAtIndex(s: string, i: nat, p: string, x: nat)
    requires PrefixAt(s, i, p) && x < |p|
    ensures i + x < |s| && s[i + x] == p[x]
    decreases |p|
  {
    if x > 0 {
      PrefixAtIndex(s, i + 1, p[1..], x - 1);
    }
  }

  /** `PrefixAt` is the pointwise comparison. */
  lemma {:induction false} PrefixAtPointwise(s: string, i: nat, p: string)
    ensures PrefixAt(s, i, p) <==> i + |p| <= |s| && forall x :: 0 <= x < |p| ==> s[i + x] == p[x]
    decreases |p|
  {
    if |p| > 0 {
      PrefixAtPointwise(s, i + 1, p[1..]);
      assert forall x :: 1 <= x < |p| ==> p[x] == p[1..][x - 1];
    }
  }

  /** A concatenation occurs where its first part does and its second part
      follows. */
  lemma {:induction false} PrefixAtConcat(s: string, i: nat, a: string, b: string)
    ensures PrefixAt(s, i, a + b) <==> PrefixAt(s, i, a) && PrefixAt(s, i + |a|, b)
    decreases |a|
  {
    if |a| == 0 {
      assert a + b == b;
      if PrefixAt(s, i, b) {
        PrefixAtBound(s, i, b);
      }
    } else {
      assert (a + b)[0] == a[0];
      assert (a + b)[1..] == a[1..] + b;
      PrefixAtConcat(s, i + 1, a[1..], b);
    }
  }

  /** A one-character occurrence is that character. */
  lemma PrefixAtChar(s: string, i: nat, c: char)
    ensures PrefixAt(s, i, [c]) <==> i < |s| && s[i] == c
  {
    assert [c][1..] == "";
  }

  /** An occurrence grows by the character that follows it. */
  lemma PrefixAtExtend(s: string, i: nat, p: string)
    requires PrefixAt(s, i, p) && i + |p| < |s|
    ensures PrefixAt(s, i, p + [s[i + |p|]])
  {
    PrefixAtConcat(s, i, p, [s[i + |p|]]);
    PrefixAtChar(s, i + |p|, s[i + |p|]);
  }

  /** A run of spaces occurs exactly where `s` holds only spaces. */
  lemma {:induction false} PrefixAtSpaces(s: string, j: nat, n: nat)
    ensures PrefixAt(s, j, Spaces(n)) <==> AllSpaces(s, j, j + n)
    decreases n
  {
    if n > 0 {
      assert Spaces(n)[0] == ' ' && Spaces(n)[1..] == Spaces(n - 1);
      PrefixAtSpaces(s, j + 1, n - 1);
    }
  }

  /** Each position of an all-space stretch holds a space. */
  lemma {:induction false} AllSpacesAt(s: string, a: nat, b: nat, x: nat)
    requires AllSpaces(s, a, b) && a <= x < b
    ensures s[x] == ' '
    decreases b - a
  {
    if a < x {
      AllSpacesAt(s, a + 1, b, x);
    }
  }

  /** An all-space stretch grows by a following space. */
  lemma {:induction false} AllSpacesExtend(s: string, a: nat, b: nat)
    requires AllSpaces(s, a, b) && b < |s| && s[b] == ' '
    ensures AllSpaces(s, a, b + 1)
    decreases b - a
  {
    if a < b {
      AllSpacesExtend(s, a + 1, b);
    }
  }

  /** `NoStops` is the pointwise condition. */
  lemma {:induction false} NoStopsPointwise(v: string)
    ensures NoStops(v) <==> forall t :: 0 <= t < |v| ==> !Stops(v[t])
    decreases |v|
  {
    if |v| > 0 {
      NoStopsPointwise(v[1..]);
      assert forall t :: 1 <= t < |v| ==> v[t] == v[1..][t - 1];
    }
  }

  /** Appending a character that does not stop the lazy group keeps a value
      free of stops. */
  lemma {:induction false} NoStopsExtend(v: string, c: char)
    requires NoStops(v) && !Stops(c)
    ensures NoStops(v + [c])
    decreases |v|
  {
    if |v| == 0 {
      assert v + [c] == [c] && [c][1..] == "";
    } else {
      assert (v + [c])[0] == v[0] && (v + [c])[1..] == v[1..] + [c];
      NoStopsExtend(v[1..], c);
    }
  }

  /** The rendering occurs at `i` exactly when its pieces lie at their
      positions. */
  lemma RenderLaid(s: string, i: nat, m: Shape)
    ensures PrefixAt(s, i, Render(m)) <==> Laid(s, i, m)
  {
    var paren: string := if m.paren then "(" else "";
    var r1 := Spelling(m.keyword);
    var r2 := r1 + Spaces(m.spaces1);
    var r3 := r2 + [Separator(m.keyword)];
    var r4 := r3 + Spaces(m.spaces2);
    var r5 := r4 + paren;
    var r6 := r5 + Spaces(m.spaces3);
    var r7 := r6 + [m.open];
    var r8 := r7 + m.value;
    assert r8 + [m.close] == Render(m);
    PrefixAtConcat(s, i, r8, [m.close]);
    PrefixAtConcat(s, i, r7, m.value);
    PrefixAtConcat(s, i, r6, [m.open]);
    PrefixAtConcat(s, i, r5, Spaces(m.spaces3));
    PrefixAtConcat(s, i, r4, paren);
    PrefixAtConcat(s, i, r3, Spaces(m.spaces2));
    PrefixAtConcat(s, i, r2, [Separator(m.keyword)]);
    PrefixAtConcat(s, i, r1, Spaces(m.spaces1));
    PrefixAtChar(s, CloseAt(i, m), m.close);
    PrefixAtChar(s, OpenAt(i, m), m.open);
    PrefixAtChar(s, SeparatorAt(i, m), Separator(m.keyword));
    if m.paren {
      PrefixAtChar(s, ParenAt(i, m), '(');
    } else {
      assert paren == "";
    }
    PrefixAtSpaces(s, KeywordEnd(i, m), m.spaces1);
    PrefixAtSpaces(s, SeparatorAt(i, m) + 1, m.spaces2);
    PrefixAtSpaces(s, ParenAt(i, m) + (if m.paren then 1 else 0), m.spaces3);
  }

  /** A match is exactly an occurrence of the rendering of a well-formed
      shape. */
  lemma MatchRendered(s: string, i: nat, m: Shape)
    ensures MatchAt(s, i, m) <==> WellFormed(m) && PrefixAt(s, i, Render(m))
  {
    RenderLaid(s, i, m);
  }

  /** The keyword whose spelling starts with `c`, if any. At most one does:
      the six spellings start with six different letters, which is why the
      scanner never has to try a second keyword at the same offset. */
  function KeywordFor(c: char): (r: Option<Keyword>)
    ensures r.Some? ==> Spelling(r.value)[0] == c
    ensures forall k :: Spelling(k)[0] == c ==> r == Some(k)
  {
    match c
    case 'h' => Some(Href)
    case 'H' => Some(HrefCaps)
    case 's' => Some(Src)
    case 'S' => Some(SrcCaps)
    case 'u' => Some(Url)
    case 'U' => Some(UrlCaps)
    case _ => None
  }

  /** How far the scanner has read into a candidate match: the last piece it
      has entered. */
  datatype Phase = InKeyword(n: nat) | AfterKeyword | AfterSeparator | AfterParen | InValue

  /** The outcome of reading one character: go on with a grown shape, stop
      with a complete match, or give up at this offset. */
  datatype Step = Continue(phase: Phase, m: Shape) | Closed(m: Shape) | Fail

  /** The scanner's transition on character `c`. */
  function Next(c: char, phase: Phase, m: Shape): Step {
    match phase
    case InKeyword(n) =>
      if n < |Spelling(m.keyword)| && c == Spelling(m.keyword)[n] then
        if n + 1 == |Spelling(m.keyword)| then Continue(AfterKeyword, m) else Continue(InKeyword(n + 1), m)
      else Fail
    case AfterKeyword =>
      if c == ' ' then Continue(AfterKeyword, m.(spaces1 := m.spaces1 + 1))
      else if c == Separator(m.keyword) then Continue(AfterSeparator, m)
      else Fail
    case AfterSeparator =>
      if c == ' ' then Continue(AfterSeparator, m.(spaces2 := m.spaces2 + 1))
      else if c == '(' then Continue(AfterParen, m.(paren := true))
      else if IsQuote(c) then Continue(InValue, m.(open := c))
      else Fail
    case AfterParen =>
      if c == ' ' then Continue(AfterParen, m.(spaces3 := m.spaces3 + 1))
      else if IsQuote(c) then Continue(InValue, m.(open := c))
      else Fail
    case InValue =>
      if IsQuote(c) then Closed(m.(close := c))
      else if c == '\n' then Fail
      else Continue(InValue, m.(value := m.value + [c]))
  }

  /** The scanner after the keyword: one character at a time, growing the
      shape `m`, until the closing quote (a match) or a character the
      expression cannot take there (no match at this offset). The regex
      engine's backtracking never finds a second way: keywords start with
      distinct letters, a space run can only be followed by a non-space, and
      the lazy group can only end at the first quote. */
  function Read(s: string, pos: nat, phase: Phase, m: Shape): Option<Shape>
    requires pos <= |s|
    decreases |s| - pos
  {
    if pos == |s| then None
    else
      match Next(s[pos], phase, m)
      case Continue(phase', m') => Read(s, pos + 1, phase', m')
      case Closed(m') => Some(m')
      case Fail => None
  }

  /** The shape a scan starts from once the keyword `k` is recognised; the
      quotes are placeholders until read. */
  function Start(k: Keyword): Shape {
    Shape(k, 0, 0, false, 0, '"', "", '"')
  }

  /** Try the expression at offset `i` only: the first character picks the
      keyword, the scanner reads the rest. */
  function MatchHere(s: string, i: nat): (r: Option<Shape>)
    requires i <= |s|
    ensures r.Some? ==> MatchAt(s, i, r.value)
  {
    if i == |s| then None
    else
      match KeywordFor(s[i])
      case None => None
      case Some(k) =>
        assert Spelling(k)[..1] == [s[i]];
        PrefixAtChar(s, i, s[i]);
        ReadSound(s, i, i + 1, InKeyword(1), Start(k));
        Read(s, i + 1, InKeyword(1), Start(k))
  }

  /** What the scanner has read so far is laid out in `s` as the pieces of
      its partial shape. */
  predicate ReadSoFar(s: string, i: nat, pos: nat, phase: Phase, m: Shape) {
    match phase
    case InKeyword(n) =>
      && 0 < n < |Spelling(m.keyword)| && m == Start(m.keyword) && pos == i + n
      && PrefixAt(s, i, Spelling(m.keyword)[..n])
    case AfterKeyword =>
      && KeywordLaid(s, i, m) && pos == SeparatorAt(i, m)
      && m.spaces2 == 0 && !m.paren && m.spaces3 == 0 && m.value == ""
    case AfterSeparator =>
      && SeparatorLaid(s, i, m) && pos == ParenAt(i, m)
      && !m.paren && m.spaces3 == 0 && m.value == ""
    case AfterParen =>
      ParenLaid(s, i, m) && m.paren && pos == OpenAt(i, m) && m.value == ""
    case InValue =>
      && OpenLaid(s, i, m) && pos == CloseAt(i, m)
      && (m.paren || m.spaces3 == 0) && IsQuote(m.open) && NoStops(m.value)
  }

  /** Reading the character at `pos` keeps the reading faithful, and a
      finished reading is a match. */
  predicate NextKeeps(s: string, i: nat, pos: nat, phase: Phase, m: Shape)
    requires pos < |s|
  {
    var step := Next(s[pos], phase, m);
    && (step.Continue? ==> ReadSoFar(s, i, pos + 1, step.phase, step.m))
    && (step.Closed? ==> MatchAt(s, i, step.m))
  }

  /** Inside the keyword: each matching letter extends the occurrence. */
  lemma NextSoundInKeyword(s: string, i: nat, pos: nat, n: nat, m: Shape)
    requires pos < |s| && ReadSoFar(s, i, pos, InKeyword(n), m)
    ensures NextKeeps(s, i, pos, InKeyword(n), m)
  {
    var w := Spelling(m.keyword);
    var c := s[pos];
    if c == w[n] {
      PrefixAtExtend(s, i, w[..n]);
      assert w[..n] + [c] == w[..n + 1];
      assert w[..|w|] == w;
    }
  }

  /** After the keyword: a space extends the first space run. */
  lemma NextSoundAfterKeyword(s: string, i: nat, pos: nat, m: Shape)
    requires pos < |s| && ReadSoFar(s, i, pos, AfterKeyword, m)
    ensures NextKeeps(s, i, pos, AfterKeyword, m)
  {
    if s[pos] == ' ' {
      AllSpacesExtend(s, KeywordEnd(i, m), pos);
    }
  }

  /** After the separator: a space extends the second space run. */
  lemma NextSoundAfterSeparator(s: string, i: nat, pos: nat, m: Shape)
    requires pos < |s| && ReadSoFar(s, i, pos, AfterSeparator, m)
    ensures NextKeeps(s, i, pos, AfterSeparator, m)
  {
    if s[pos] == ' ' {
      AllSpacesExtend(s, SeparatorAt(i, m) + 1, pos);
    }
  }

  /** After the optional parenthesis: a space extends the third space run. */
  lemma NextSoundAfterParen(s: string, i: nat, pos: nat, m: Shape)
    requires pos < |s| && ReadSoFar(s, i, pos, AfterParen, m)
    ensures NextKeeps(s, i, pos, AfterParen, m)
  {
    if s[pos] == ' ' {
      ParenSpaceSound(s, i, pos, m);
    } else if IsQuote(s[pos]) {
      ParenQuoteSound(s, i, pos, m);
    }
  }

  /** A space after the parenthesis extends the third run of spaces. */
  lemma ParenSpaceSound(s: string, i: nat, pos: nat, m: Shape)
    requires pos < |s| && ReadSoFar(s, i, pos, AfterParen, m) && s[pos] == ' '
    ensures ReadSoFar(s, i, pos + 1, AfterParen, m.(spaces3 := m.spaces3 + 1))
  {
    AllSpacesExtend(s, ParenAt(i, m) + 1, pos);
  }

  /** A quote after the parenthesis opens the value. */
  lemma ParenQuoteSound(s: string, i: nat, pos: nat, m: Shape)
    requires pos < |s| && ReadSoFar(s, i, pos, AfterParen, m) && IsQuote(s[pos])
    ensures ReadSoFar(s, i, pos + 1, InValue, m.(open := s[pos]))
  {
  }

  /** Inside the value: a character other than a quote or line feed extends
      it, and a quote completes the match. */
  lemma NextSoundInValue(s: string, i: nat, pos: nat, m: Shape)
    requires pos < |s| && ReadSoFar(s, i, pos, InValue, m)
    ensures NextKeeps(s, i, pos, InValue, m)
  {
    if IsQuote(s[pos]) {
      ValueCloseSound(s, i, pos, m);
    } else if s[pos] != '\n' {
      ValueExtendSound(s, i, pos, m);
    }
  }

  /** A quote inside the value closes the match. */
  lemma ValueCloseSound(s: string, i: nat, pos: nat, m: Shape)
    requires pos < |s| && ReadSoFar(s, i, pos, InValue, m) && IsQuote(s[pos])
    ensures MatchAt(s, i, m.(close := s[pos]))
  {
  }

  /** Any other character but a line feed extends the value. */
  lemma ValueExtendSound(s: string, i: nat, pos: nat, m: Shape)
    requires pos < |s| && ReadSoFar(s, i, pos, InValue, m) && !IsQuote(s[pos]) && s[pos] != '\n'
    ensures ReadSoFar(s, i, pos + 1, InValue, m.(value := m.value + [s[pos]]))
  {
    PrefixAtExtend(s, OpenAt(i, m) + 1, m.value);
    NoStopsExtend(m.value, s[pos]);
  }

  /** One transition keeps the reading faithful, whatever the phase. */
  lemma NextSound(s: string, i: nat, pos: nat, phase: Phase, m: Shape)
    requires pos < |s| && ReadSoFar(s, i, pos, phase, m)
    ensures NextKeeps(s, i, pos, phase, m)
  {
    match phase
    case InKeyword(n) => NextSoundInKeyword(s, i, pos, n, m);
    case AfterKeyword => NextSoundAfterKeyword(s, i, pos, m);
    case AfterSeparator => NextSoundAfterSeparator(s, i, pos, m);
    case AfterParen => NextSoundAfterParen(s, i, pos, m);
    case InValue => NextSoundInValue(s, i, pos, m);
  }

  /** Soundness of the scanner: from a faithful partial reading, whatever it
      returns is a match. */
  lemma {:induction false} ReadSound(s: string, i: nat, pos: nat, phase: Phase, m: Shape)
    requires pos <= |s| && ReadSoFar(s, i, pos, phase, m)
    ensures Read(s, pos, phase, m).Some? ==> MatchAt(s, i, Read(s, pos, phase, m).value)
    decreases |s| - pos
  {
    if pos < |s| {
      NextSound(s, i, pos, phase, m);
      var step := Next(s[pos], phase, m);
      if step.Continue? {
        ReadSound(s, i, pos + 1, step.phase, step.m);
      }
    }
  }

  /** The partial shape `m` is on the way to the match `t`: the pieces read
      so far agree with `t`, and `pos` is where `t` continues. */
  predicate Toward(i: nat, pos: nat, phase: Phase, m: Shape, t: Shape) {
    && m.keyword == t.keyword
    && match phase
       case InKeyword(n) =>
         m == Start(t.keyword) && 0 < n < |Spelling(t.keyword)| && pos == i + n
       case AfterKeyword =>
         && m.spaces1 <= t.spaces1 && pos == KeywordEnd(i, t) + m.spaces1
         && m.spaces2 == 0 && !m.paren && m.spaces3 == 0 && m.value == ""
       case AfterSeparator =>
         && m.spaces1 == t.spaces1 && m.spaces2 <= t.spaces2
         && pos == SeparatorAt(i, t) + 1 + m.spaces2
         && !m.paren && m.spaces3 == 0 && m.value == ""
       case AfterParen =>
         && m.spaces1 == t.spaces1 && m.spaces2 == t.spaces2 && t.paren && m.paren
         && m.spaces3 <= t.spaces3 && pos == ParenAt(i, t) + 1 + m.spaces3
         && m.value == ""
       case InValue =>
         && m.spaces1 == t.spaces1 && m.spaces2 == t.spaces2 && m.paren == t.paren
         && m.spaces3 == t.spaces3 && m.open == t.open
         && |m.value| <= |t.value| && m.value == t.value[..|m.value|]
         && pos == OpenAt(i, t) + 1 + |m.value|
  }

  /** On the way to a match, one transition either stays on the way or
      completes exactly that match. */
  lemma NextComplete(s: string, i: nat, pos: nat, phase: Phase, m: Shape, t: Shape)
    requires MatchAt(s, i, t) && Toward(i, pos, phase, m, t)
    ensures pos < |s|
    ensures Next(s[pos], phase, m).Continue? || Next(s[pos], phase, m) == Closed(t)
    ensures Next(s[pos], phase, m).Continue? ==>
      Toward(i, pos + 1, Next(s[pos], phase, m).phase, Next(s[pos], phase, m).m, t)
  {
    PrefixAtBound(s, OpenAt(i, t) + 1, t.value);
    match phase
    case InKeyword(n) =>
      PrefixAtIndex(s, i, Spelling(t.keyword), n);
    case AfterKeyword =>
      if m.spaces1 < t.spaces1 {
        AllSpacesAt(s, KeywordEnd(i, t), SeparatorAt(i, t), pos);
      }
    case AfterSeparator =>
      if m.spaces2 < t.spaces2 {
        AllSpacesAt(s, SeparatorAt(i, t) + 1, ParenAt(i, t), pos);
      }
    case AfterParen =>
      if m.spaces3 < t.spaces3 {
        AllSpacesAt(s, ParenAt(i, t) + 1, OpenAt(i, t), pos);
      }
    case InValue =>
      if |m.value| < |t.value| {
        var c := t.value[|m.value|];
        PrefixAtIndex(s, OpenAt(i, t) + 1, t.value, |m.value|);
        NoStopsPointwise(t.value);
        assert m.value + [c] == t.value[..|m.value| + 1];
      } else {
        assert m.value == t.value;
      }
  }

  /** Completeness of the scanner: on the way to a match, it reads exactly
      that match. */
  lemma {:induction false} ReadComplete(s: string, i: nat, pos: nat, phase: Phase, m: Shape, t: Shape)
    requires MatchAt(s, i, t) && pos <= |s| && Toward(i, pos, phase, m, t)
    ensures Read(s, pos, phase, m) == Some(t)
    decreases |s| - pos
  {
    NextComplete(s, i, pos, phase, m, t);
    var step := Next(s[pos], phase, m);
    if step.Continue? {
      ReadComplete(s, i, pos + 1, step.phase, step.m, t);
    }
  }

  /** Completeness of the one-position matcher: whenever the expression
      matches at `i`, `MatchHere` finds that very match. With soundness
      (the postcondition of `MatchHere`) a match at `i` is unique. */
  lemma MatchHereComplete(s: string, i: nat, m: Shape)
    requires MatchAt(s, i, m)
    ensures MatchHere(s, i) == Some(m)
  {
    PrefixAtIndex(s, i, Spelling(m.keyword), 0);
    PrefixAtBound(s, i, Spelling(m.keyword));
    ReadComplete(s, i, i + 1, InKeyword(1), Start(m.keyword), m);
  }

  /** One match found by the scanner: where it starts and its shape. */
  datatype Found = Found(start: nat, shape: Shape)

  /** How many characters a match of shape `m` covers: up to and including
      its closing quote. */
  function Width(m: Shape): nat {
    CloseAt(0, m) + 1
  }

  /** The width is the length of the rendering. */
  lemma RenderWidth(m: Shape)
    ensures |Render(m)| == Width(m)
  {
  }

  /** Offset just past a found match. */
  function End(f: Found): nat {
    f.start + Width(f.shape)
  }

  /** `Regex.Matches`: from offset `from`, the match at the leftmost offset
      where one exists, then the search resumes after it. */
  function Scan(s: string, from: nat): (fs: seq<Found>)
    decreases |s| - from
  {
    if from >= |s| then []
    else
      match MatchHere(s, from)
      case Some(m) => [Found(from, m)] + Scan(s, from + Width(m))
      case None => Scan(s, from + 1)
  }

  /** One step of the scan where a match starts. */
  lemma ScanAtMatch(s: string, from: nat, m: Shape)
    requires from < |s| && MatchHere(s, from) == Some(m)
    ensures Scan(s, from) == [Found(from, m)] + Scan(s, from + Width(m))
  {
    ScanAtSome(s, from);
  }

  /** The same step, stated with the match the scanner finds. */
  lemma ScanAtSome(s: string, from: nat)
    requires from < |s| && MatchHere(s, from).Some?
    ensures Scan(s, from) == [Found(from, MatchHere(s, from).value)] + Scan(s, from + Width(MatchHere(s, from).value))
  {
  }

  /** One step of the scan where no match starts. */
  lemma ScanAtMiss(s: string, from: nat)
    requires from < |s| && MatchHere(s, from).None?
    ensures Scan(s, from) == Scan(s, from + 1)
  {
  }

  /** No match starts at any offset in `[a, b)`. */
  ghost predicate NoMatchBetween(s: string, a: nat, b: nat) {
    forall p: nat, m: Shape :: a <= p < b ==> !MatchAt(s, p, m)
  }

  /** `fs` is the result of a leftmost, non-overlapping search from `from`:
      each element is a match at the leftmost offset not before the end of
      its predecessor, and after the last one there is no match. */
  ghost predicate IsLeftmostSearch(s: string, from: nat, fs: seq<Found>)
    decreases |fs|
  {
    if |fs| == 0 then NoMatchBetween(s, from, |s| + 1)
    else
      && from <= fs[0].start
      && MatchAt(s, fs[0].start, fs[0].shape)
      && NoMatchBetween(s, from, fs[0].start)
      && IsLeftmostSearch(s, End(fs[0]), fs[1..])
  }

  /** A leftmost search may start with a match that has nothing before it. */
  lemma LeftmostCons(s: string, from: nat, f: Found, rest: seq<Found>)
    requires from <= f.start && MatchAt(s, f.start, f.shape)
    requires NoMatchBetween(s, from, f.start)
    requires IsLeftmostSearch(s, End(f), rest)
    ensures IsLeftmostSearch(s, from, [f] + rest)
  {
    assert ([f] + rest)[0] == f && ([f] + rest)[1..] == rest;
  }

  /** An offset where nothing matches can be skipped. */
  lemma LeftmostSkip(s: string, from: nat, fs: seq<Found>)
    requires forall m :: !MatchAt(s, from, m)
    requires IsLeftmostSearch(s, from + 1, fs)
    ensures IsLeftmostSearch(s, from, fs)
  {
  }

  /** Past the end of the content nothing matches. */
  lemma NoMatchPastEnd(s: string, from: nat)
    requires from >= |s|
    ensures IsLeftmostSearch(s, from, [])
  {
    forall p: nat, m: Shape | from <= p < |s| + 1
      ensures !MatchAt(s, p, m)
    {
    }
  }

  /** Where the scanner finds a match, the search goes on after it. */
  lemma LeftmostAtMatch(s: string, from: nat, m: Shape)
    requires from < |s| && MatchHere(s, from) == Some(m)
    requires IsLeftmostSearch(s, from + Width(m), Scan(s, from + Width(m)))
    ensures IsLeftmostSearch(s, from, Scan(s, from))
  {
    LeftmostCons(s, from, Found(from, m), Scan(s, from + Width(m)));
    ScanAtMatch(s, from, m);
  }

  /** Where the scanner finds nothing, nothing matches, and the search
      goes on at the next offset. */
  lemma LeftmostAtMiss(s: string, from: nat)
    requires from < |s| && MatchHere(s, from).None?
    requires IsLeftmostSearch(s, from + 1, Scan(s, from + 1))
    ensures IsLeftmostSearch(s, from, Scan(s, from))
  {
    forall m: Shape
      ensures !MatchAt(s, from, m)
    {
      if MatchAt(s, from, m) {
        MatchHereComplete(s, from, m);
      }
    }
    LeftmostSkip(s, from, Scan(s, from + 1));
    ScanAtMiss(s, from);
  }

  /** The scanner performs the leftmost, non-overlapping search. */
  lemma {:induction false} ScanIsLeftmost(s: string, from: nat)
    ensures IsLeftmostSearch(s, from, Scan(s, from))
    decreases |s| - from
  {
    if from >= |s| {
      NoMatchPastEnd(s, from);
    } else {
      match MatchHere(s, from)
      case Some(m) =>
        ScanIsLeftmost(s, from + Width(m));
        LeftmostAtMatch(s, from, m);
      case None =>
        ScanIsLeftmost(s, from + 1);
        LeftmostAtMiss(s, from);
    }
  }

  /** Before its first match a leftmost search may drop its first offset,
      where nothing matches. */
  lemma LeftmostShift(s: string, from: nat, fs: seq<Found>)
    requires IsLeftmostSearch(s, from, fs)
    requires |fs| == 0 || from < fs[0].start
    ensures forall m :: !MatchAt(s, from, m)
    ensures IsLeftmostSearch(s, from + 1, fs)
  {
  }

  /** The specification determines the scan: any leftmost, non-overlapping
      search result is the scanner's. */
  lemma {:induction false} LeftmostSearchIsScan(s: string, from: nat, fs: seq<Found>)
    requires IsLeftmostSearch(s, from, fs)
    ensures fs == Scan(s, from)
    decreases |s| - from, |fs|
  {
    if |fs| > 0 && from == fs[0].start {
      var f := fs[0];
      MatchHereComplete(s, from, f.shape);
      LeftmostSearchIsScan(s, End(f), fs[1..]);
      ScanAtSome(s, from);
      assert fs == [f] + fs[1..];
    } else if from < |s| {
      LeftmostShift(s, from, fs);
      assert MatchHere(s, from).None?;
      LeftmostSearchIsScan(s, from + 1, fs);
      ScanAtMiss(s, from);
    } else {
      assert |fs| == 0;
    }
  }

  /** Found matches start at or after `from`, come left to right and do not
      overlap: each starts at or after the end of the one before. */
  predicate Ordered(from: nat, fs: seq<Found>)
    decreases |fs|
  {
    |fs| == 0 || (from <= fs[0].start && Ordered(End(fs[0]), fs[1..]))
  }

  /** `Ordered`, element by element. */
  lemma {:induction false} OrderedPointwise(from: nat, fs: seq<Found>)
    requires Ordered(from, fs)
    ensures forall k :: 0 <= k < |fs| ==> from <= fs[k].start
    ensures forall k :: 0 <= k < |fs| - 1 ==> End(fs[k]) <= fs[k + 1].start
    decreases |fs|
  {
    if |fs| > 0 {
      var rest := fs[1..];
      OrderedPointwise(End(fs[0]), rest);
      forall k | 0 < k < |fs|
        ensures End(fs[0]) <= fs[k].start
      {
        assert fs[k] == rest[k - 1];
      }
      forall k | 0 < k < |fs| - 1
        ensures End(fs[k]) <= fs[k + 1].start
      {
        assert fs[k] == rest[k - 1] && fs[k + 1] == rest[k];
      }
    }
  }

  /** A match in place, then an ordered tail after it, is ordered. */
  lemma OrderedCons(from: nat, f: Found, rest: seq<Found>)
    requires from <= f.start && Ordered(End(f), rest)
    ensures Ordered(from, [f] + rest)
  {
    assert ([f] + rest)[1..] == rest;
  }

  /** A match at `from` followed by an ordered scan after it is ordered. */
  lemma ScanOrderedStep(s: string, from: nat)
    requires from < |s| && MatchHere(s, from).Some?
    requires Ordered(End(Found(from, MatchHere(s, from).value)), Scan(s, End(Found(from, MatchHere(s, from).value))))
    ensures Ordered(from, Scan(s, from))
  {
    var f := Found(from, MatchHere(s, from).value);
    ScanAtSome(s, from);
    OrderedCons(from, f, Scan(s, End(f)));
  }

  /** The scanner's matches are ordered and do not overlap. */
  lemma {:induction false} ScanOrdered(s: string, from: nat)
    ensures Ordered(from, Scan(s, from))
    decreases |s| - from
  {
    if from < |s| {
      match MatchHere(s, from)
      case Some(m) =>
        ScanOrdered(s, from + Width(m));
        ScanOrderedStep(s, from);
      case None =>
        ScanOrdered(s, from + 1);
        ScanAtMiss(s, from);
    }
  }

  /** Every element of a leftmost search is a match. */
  lemma {:induction false} LeftmostMatches(s: string, from: nat, fs: seq<Found>)
    requires IsLeftmostSearch(s, from, fs)
    ensures forall k :: 0 <= k < |fs| ==> MatchAt(s, fs[k].start, fs[k].shape)
    decreases |fs|
  {
    if |fs| > 0 {
      var rest := fs[1..];
      LeftmostMatches(s, End(fs[0]), rest);
      assert forall k :: 0 < k < |fs| ==> fs[k] == rest[k - 1];
    }
  }

  /** Every element of a scan is a match. */
  lemma ScanMatches(s: string, from: nat)
    ensures forall k :: 0 <= k < |Scan(s, from)| ==> MatchAt(s, Scan(s, from)[k].start, Scan(s, from)[k].shape)
  {
    ScanIsLeftmost(s, from);
    LeftmostMatches(s, from, Scan(s, from));
  }

  /** The captured values, in match order: group 2 of each match. */
  function Values(fs: seq<Found>): (vs: seq<string>)
    ensures |vs| == |fs|
    ensures forall k :: 0 <= k < |fs| ==> vs[k] == fs[k].shape.value
  {
    if |fs| == 0 then [] else [fs[0].shape.value] + Values(fs[1..])
  }

  /** `_linkRegex.Matches(content)` mapped to `Groups[2].Value`: the values
      of the leftmost, non-overlapping search, which is unique; none of them
      holds a quote or a line feed. */
  function ExtractLinks(content: string): (links: seq<string>)
    ensures exists fs :: IsLeftmostSearch(content, 0, fs) && links == Values(fs)
    ensures forall fs :: IsLeftmostSearch(content, 0, fs) ==> links == Values(fs)
    ensures forall k, t :: 0 <= k < |links| && 0 <= t < |links[k]| ==> !Stops(links[k][t])
  {
    var fs := Scan(content, 0);
    ScanMatches(content, 0);
    ScanIsLeftmost(content, 0);
    forall k | 0 <= k < |fs|
      ensures forall t :: 0 <= t < |fs[k].shape.value| ==> !Stops(fs[k].shape.value[t])
    {
      NoStopsPointwise(fs[k].shape.value);
    }
    forall fs' | IsLeftmostSearch(content, 0, fs')
      ensures fs' == fs
    {
      LeftmostSearchIsScan(content, 0, fs');
    }
    Values(fs)
  }
}

=== FILE: links_examples.dfy ===
/** Worked examples of the link extractor on small pages. */
module LinkExamples {
  import opened Basics
  import opened Links

  /** `href="b"`: double quotes, no spaces. */
  function HrefB(): Shape {
    Shape(Href, 0, 0, false, 0, '"', "b", '"')
  }

  /** `src='c.png'`: single quotes. */
  function SrcPng(): Shape {
    Shape(Src, 0, 0, false, 0, '\'', "c.png", '\'')
  }

  /** The anchor at the start of `href="b" src='c.png'` is a match. */
  lemma TwoLinksFirst(s: string)
    requires s == "href=\"b\" src='c.png'"
    ensures MatchAt(s, 0, HrefB())
  {
    PrefixAtPointwise(s, 0, "href");
    PrefixAtPointwise(s, 6, "b");
  }

  /** So is the image source after the space. */
  lemma TwoLinksSecond(s: string)
    requires s == "href=\"b\" src='c.png'"
    ensures MatchAt(s, 9, SrcPng())
  {
    PrefixAtPointwise(s, 9, "src");
    PrefixAtPointwise(s, 14, "c.png");
  }

  /** From the space on, the scanner finds the image source only. */
  lemma TwoLinksTail(s: string)
    requires s == "href=\"b\" src='c.png'"
    ensures Scan(s, 8) == [Found(9, SrcPng())]
  {
    TwoLinksSecond(s);
    MatchHereComplete(s, 9, SrcPng());
    assert s[8] == ' ';
    ScanAtMiss(s, 8);
    ScanAtMatch(s, 9, SrcPng());
  }

  /** The scanner finds the two, in order, and nothing else. */
  lemma TwoLinksScan(s: string)
    requires s == "href=\"b\" src='c.png'"
    ensures Scan(s, 0) == [Found(0, HrefB()), Found(9, SrcPng())]
  {
    TwoLinksFirst(s);
    MatchHereComplete(s, 0, HrefB());
    ScanAtMatch(s, 0, HrefB());
    TwoLinksTail(s);
  }

  /** The extracted links are the two values, in page order. */
  lemma TwoLinks(s: string)
    requires s == "href=\"b\" src='c.png'"
    ensures ExtractLinks(s) == ["b", "c.png"]
  {
    TwoLinksScan(s);
    ScanIsLeftmost(s, 0);
  }

  /** Keywords are case-sensitive: `Href="x"` starts no match, although
      the letters after `H` spell the attribute. */
  lemma MixedCaseKeywordIsNoMatch(s: string)
    requires s == "Href=\"x\""
    ensures MatchHere(s, 0).None?
    ensures forall m :: !MatchAt(s, 0, m)
  {
    forall m | MatchAt(s, 0, m)
      ensures false
    {
      MatchHereComplete(s, 0, m);
    }
  }

  /** Either quote may close what either opened: `url("a.png')` captures
      `a.png`. */
  lemma MixedQuotes(s: string)
    requires s == "url(\"a.png')"
    ensures MatchHere(s, 0) == Some(Shape(Url, 0, 0, false, 0, '"', "a.png", '\''))
  {
    var m := Shape(Url, 0, 0, false, 0, '"', "a.png", '\'');
    PrefixAtPointwise(s, 0, "url");
    PrefixAtPointwise(s, 5, "a.png");
    NoStopsPointwise("a.png");
    MatchHereComplete(s, 0, m);
  }
}

=== FILE: local_paths.dfy ===
/** Where the crawler's front end stores a fetched resource on disk, and how
    its disk cache answers the crawler's cache hook. The disk itself is an
    input: a map from file path to the text the file holds. */
module LocalPaths {
  import opened Basics
  import opened Text
  import opened Records
  import opened Classifier

  /** The output directory with one trailing `/` removed, if there is one. */
  function TrimOutputPath(p: string): (r: string)
    ensures EndsWith(p, '/') ==> p == r + "/"
    ensures !EndsWith(p, '/') ==> r == p
  {
    if EndsWith(p, '/') then p[..|p| - 1] else p
  }

  /** Exactly one slash comes off: `a//` becomes `a/`. */
  lemma TrimOutputPathOnce(q: string)
    ensures TrimOutputPath(q + "/") == q
  {
    assert (q + "/")[..|q|] == q;
  }

  /** One decimal digit. */
  function Digit(d: nat): char
    requires d < 10
  {
    "0123456789"[d]
  }

  /** `n` in decimal, as string interpolation prints a port. */
  function DecimalString(n: nat): (r: string)
    ensures |r| > 0 && forall k :: 0 <= k < |r| ==> '0' <= r[k] <= '9'
  {
    if n < 10 then [Digit(n)] else DecimalString(n / 10) + [Digit(n % 10)]
  }

  /** Reading decimal digits back. */
  function ParseDecimal(s: string): nat
    decreases |s|
  {
    if |s| == 0 then 0
    else
      var c := s[|s| - 1];
      var d := if '0' <= c <= '9' then c as int - '0' as int else 0;
      ParseDecimal(s[..|s| - 1]) * 10 + d
  }

  /** Reading back what was printed gives the number again. */
  lemma {:induction false} ParseDecimalString(n: nat)
    ensures ParseDecimal(DecimalString(n)) == n
    decreases n
  {
    var r := DecimalString(n);
    if n >= 10 {
      ParseDecimalString(n / 10);
      assert r[..|r| - 1] == DecimalString(n / 10);
    }
  }

  /** Different ports print differently. */
  lemma DecimalStringInjective(a: nat, b: nat)
    requires DecimalString(a) == DecimalString(b)
    ensures a == b
  {
    ParseDecimalString(a);
    ParseDecimalString(b);
  }

  /** Position `j` holds the dot that starts the extension of `path`: the
      last dot of the last path component, not the final character. */
  ghost predicate ExtensionDot(path: string, j: int) {
    && 0 <= j < |path| - 1 && path[j] == '.'
    && forall k :: j < k < |path| ==> path[k] != '.' && path[k] != '/'
  }

  /** At most one position starts the extension. */
  lemma ExtensionDotUnique(path: string, j1: int, j2: int)
    requires ExtensionDot(path, j1) && ExtensionDot(path, j2)
    ensures j1 == j2
  {
  }

  /** The backward scan of `Path.GetExtension` from index `i`, where
      everything after `i` is neither a dot nor a separator: the first dot
      met starts the extension unless it is the final character, and a
      separator (or the start of the path) ends the search empty-handed. */
  function ExtensionScan(path: string, i: int): (r: string)
    requires -1 <= i < |path|
    requires forall k :: i < k < |path| ==> path[k] != '.' && path[k] != '/'
    ensures r != "" ==> 2 <= |r| <= |path| && r == path[|path| - |r|..] && ExtensionDot(path, |path| - |r|)
    ensures r == "" ==> forall j :: !ExtensionDot(path, j)
    decreases i + 1
  {
    if i < 0 then ""
    else if path[i] == '.' then
      if i != |path| - 1 then path[i..] else ""
    else if path[i] == '/' then ""
    else ExtensionScan(path, i - 1)
  }

  /** `Path.GetExtension` (and `FileInfo.Extension`) with `/` as the only
      directory separator: from the last `.` of the last path component to
      the end, dot included; empty when that component has no dot or ends
      with one. */
  function GetExtension(path: string): (r: string)
    ensures r != "" ==> 2 <= |r| <= |path| && r == path[|path| - |r|..] && ExtensionDot(path, |path| - |r|)
    ensures r == "" <==> forall j :: !ExtensionDot(path, j)
  {
    ExtensionScan(path, |path| - 1)
  }

  /** The extension is determined by where its dot is. */
  lemma ExtensionAt(path: string, j: int)
    requires ExtensionDot(path, j)
    ensures GetExtension(path) == path[j..]
  {
    var r := GetExtension(path);
    ExtensionDotUnique(path, j, |path| - |r|);
  }

  /** Append `index` to a path naming a directory: the result extends the
      path by nothing or by `index`, changes it exactly when it named a
      directory, and always names a file. */
  function RemotePath(absPath: string): (r: string)
    ensures absPath <= r && r[|absPath|..] in {"", "index"}
    ensures EndsWith(absPath, '/') <==> r != absPath
    ensures !EndsWith(r, '/')
  {
    if EndsWith(absPath, '/') then
      assert (absPath + "index")[|absPath|..] == "index";
      absPath + "index"
    else
      assert absPath[|absPath|..] == "";
      absPath
  }

  /** The per-site directory name: host, a dash, and the port. */
  function SiteName(uri: Uri): (r: string)
    ensures |uri.host| < |r| && r[..|uri.host|] == uri.host && r[|uri.host|] == '-'
    ensures '-' !in r[|uri.host| + 1..]
  {
    var r := uri.host + "-" + DecimalString(uri.port);
    NoDashInDecimal(uri.port);
    assert r[..|uri.host|] == uri.host && r[|uri.host| + 1..] == DecimalString(uri.port);
    r
  }

  /** The file path before any media-type suffix: the output directory, the
      site directory, then the remote path. */
  function BarePath(output: string, uri: Uri): (r: string)
    ensures output + "/" + SiteName(uri) + uri.path <= r
    ensures uri.path != "" ==> !EndsWith(r, '/')
  {
    var dir := output + "/" + SiteName(uri);
    var r := dir + RemotePath(uri.path);
    assert r[..|dir|] == dir && r[|dir|..] == RemotePath(uri.path);
    assert uri.path != "" ==> RemotePath(uri.path) != "" && r[|r| - 1] == RemotePath(uri.path)[|RemotePath(uri.path)| - 1];
    r
  }

  /** The text after the last `/` of a media type: `html` for `text/html`. */
  function MediaSubtype(mime: string): (r: string)
    ensures '/' !in r
  {
    LastAfter(mime, '/')
  }

  /** `DetermineLocalFilePath`: the bare path, plus `.` and the media
      subtype when the bare path has no extension and a media type is known.
      The file always lies at the bare path or below it; it is the bare path
      itself exactly when no suffix is due; a suffix is the dot and the
      subtype, and a subtype without a dot becomes the file's extension. */
  function DetermineLocalFilePath(output: string, uri: Uri, mime: Option<string>): (r: string)
    ensures BarePath(output, uri) <= r
    ensures r == BarePath(output, uri) <==> GetExtension(BarePath(output, uri)) != "" || mime.None?
    ensures r != BarePath(output, uri) ==>
      mime.Some? && r[|BarePath(output, uri)|..] == "." + MediaSubtype(mime.value)
    ensures && mime.Some? && GetExtension(BarePath(output, uri)) == ""
            && MediaSubtype(mime.value) != "" && '.' !in MediaSubtype(mime.value) ==>
      GetExtension(r) == "." + MediaSubtype(mime.value)
  {
    var filePath := BarePath(output, uri);
    if GetExtension(filePath) == "" && mime.Some? then
      var sub := MediaSubtype(mime.value);
      var r := filePath + "." + sub;
      assert r[..|filePath|] == filePath && r[|filePath|..] == "." + sub;
      if sub != "" && '.' !in sub then DotSuffixExtension(filePath, sub); r
      else r
    else filePath
  }

  /** The query takes no part in the local path: two URIs that differ only
      in their query are stored in, and looked up at, the same file. */
  lemma QueryIgnored(output: string, disk: map<string, string>, a: Uri, b: Uri, mime: Option<string>)
    requires a.(query := b.query) == b
    ensures DetermineLocalFilePath(output, a, mime) == DetermineLocalFilePath(output, b, mime)
    ensures SearchDiskCache(output, disk, a) == SearchDiskCache(output, disk, b)
  {
  }

  /** The stored file always lies under the output directory, in the site
      directory, at the remote path (with `index` for a directory). */
  lemma LocalPathPrefix(output: string, uri: Uri, mime: Option<string>)
    ensures output + "/" + SiteName(uri) + RemotePath(uri.path) <= DetermineLocalFilePath(output, uri, mime)
  {
  }

  /** A page saved with a media-type suffix gets that subtype as its
      extension, as long as the subtype is non-empty and has no dot. */
  lemma SuffixBecomesExtension(output: string, uri: Uri, mime: string)
    requires GetExtension(BarePath(output, uri)) == ""
    requires MediaSubtype(mime) != "" && '.' !in MediaSubtype(mime)
    ensures GetExtension(DetermineLocalFilePath(output, uri, Some(mime))) == "." + MediaSubtype(mime)
  {
  }

  /** Appending a dot and a dot-free, slash-free word makes that word the
      extension. */
  lemma DotSuffixExtension(bare: string, sub: string)
    requires sub != "" && '.' !in sub && '/' !in sub
    ensures GetExtension(bare + "." + sub) == "." + sub
  {
    var p := bare + "." + sub;
    forall k | |bare| < k < |p|
      ensures p[k] == sub[k - |bare| - 1] && p[k] != '.' && p[k] != '/'
    {
    }
    assert ExtensionDot(p, |bare|);
    ExtensionAt(p, |bare|);
    assert p[|bare|..] == "." + sub;
  }

  /** Joining with a dash can be undone when the right part has no dash. */
  lemma DashSplit(h1: string, d1: string, h2: string, d2: string)
    requires '-' !in d1 && '-' !in d2
    requires h1 + "-" + d1 == h2 + "-" + d2
    ensures h1 == h2 && d1 == d2
  {
    var w := h1 + "-" + d1;
    assert w == h1 + ['-'] + d1 && w == h2 + ['-'] + d2;
    LastAfterSuffix(h1, '-', d1);
    LastAfterSuffix(h2, '-', d2);
    assert h1 == w[..|h1|] && h2 == w[..|h2|];
  }

  /** Printed numbers hold no dash. */
  lemma NoDashInDecimal(n: nat)
    ensures '-' !in DecimalString(n)
  {
    var r := DecimalString(n);
    forall k | 0 <= k < |r|
      ensures r[k] != '-'
    {
    }
  }

  /** Two sites share a directory only if host and port both agree: the port
      has no dash, so the last dash separates them. */
  lemma SiteNameInjective(a: Uri, b: Uri)
    requires SiteName(a) == SiteName(b)
    ensures a.host == b.host && a.port == b.port
  {
    NoDashInDecimal(a.port);
    NoDashInDecimal(b.port);
    DashSplit(a.host, DecimalString(a.port), b.host, DecimalString(b.port));
    DecimalStringInjective(a.port, b.port);
  }

  /** `SearchDiskCache`: look the resource up at its bare path (the lookup
      knows no media type). A missing file is not cached; an existing one
      skips the network and hands back its text, marked as text exactly when
      its extension, without the dot, is a known text extension. */
  function SearchDiskCache(output: string, disk: map<string, string>, uri: Uri): (r: ContentRequestResponse)
    ensures DetermineLocalFilePath(output, uri, None) !in disk ==> r == NotCached()
    ensures DetermineLocalFilePath(output, uri, None) in disk ==>
      && r.skip && r.content == Some(disk[DetermineLocalFilePath(output, uri, None)])
      && r.isTextFile.Some?
    ensures r.isTextFile == Some(true) <==>
      && DetermineLocalFilePath(output, uri, None) in disk
      && exists e :: GetExtension(DetermineLocalFilePath(output, uri, None)) == "." + e && IsKnownTextExtension(e)
  {
    var filePath := DetermineLocalFilePath(output, uri, None);
    if filePath !in disk then NotCached() else CachedFile(filePath, disk[filePath])
  }

  /** The answer for a file found on disk: its text, marked as text exactly
      when its extension, without the dot, is a known text extension. */
  function CachedFile(filePath: string, content: string): (r: ContentRequestResponse)
    ensures r.skip && r.content == Some(content) && r.isTextFile.Some?
    ensures r.isTextFile == Some(true) <==>
      exists e :: GetExtension(filePath) == "." + e && IsKnownTextExtension(e)
  {
    var ext := GetExtension(filePath);
    if ext == "" then ContentRequestResponse(true, Some(false), Some(content))
    else
      var stripped := if ext[0] == '.' then ext[1..] else ext;
      assert ext == "." + stripped;
      if stripped == "" then ContentRequestResponse(true, Some(false), Some(content))
      else if IsKnownTextExtension(stripped) then ContentRequestResponse(true, Some(true), Some(content))
      else ContentRequestResponse(true, Some(false), Some(content))
  }

  /** Storing a page and looking it up again: when no suffix was added the
      cache finds the stored text. */
  lemma StoredPageIsFound(output: string, disk: map<string, string>, uri: Uri, mime: Option<string>, text: string)
    requires GetExtension(BarePath(output, uri)) != "" || mime.None?
    ensures
      var r := SearchDiskCache(output, disk[DetermineLocalFilePath(output, uri, mime) := text], uri);
      r.skip && r.content == Some(text)
  {
  }

  /** When the store added a media-type suffix, the lookup (which knows no
      media type) probes the bare path and never sees the stored file: the
      cache answers as if nothing had been stored. */
  lemma SuffixedPageIsMissed(output: string, disk: map<string, string>, uri: Uri, mime: string, text: string)
    requires GetExtension(BarePath(output, uri)) == ""
    ensures
      SearchDiskCache(output, disk[DetermineLocalFilePath(output, uri, Some(mime)) := text], uri)
      == SearchDiskCache(output, disk, uri)
  {
    var bare := BarePath(output, uri);
    assert |DetermineLocalFilePath(output, uri, Some(mime))| > |bare|;
  }

  /** A path whose last slash is followed by no dot has no extension. */
  lemma NoExtensionAfterSlash(path: string, k: nat)
    requires k < |path| && path[k] == '/' && '.' !in path[k + 1..]
    ensures GetExtension(path) == ""
  {
    forall j | 0 <= j < |path| - 1
      ensures !ExtensionDot(path, j)
    {
      if j > k {
        assert path[j] == path[k + 1..][j - k - 1];
      } else if j < k {
        assert path[k] == '/';
      }
    }
  }

  /** `text/html` has subtype `html`. */
  lemma HtmlSubtype(mime: string)
    requires mime == "text/html"
    ensures MediaSubtype(mime) == "html"
  {
    LastAfterSuffix("text", '/', "html");
    assert "text" + ['/'] + "html" == mime;
  }

  /** A site root is stored as `index`, with the media subtype appended:
      `text/html` at `http://example.com/` goes to
      `out/example.com-80/index.html`; the cache looks for
      `out/example.com-80/index`. */
  lemma RootPageLocation(output: string, uri: Uri, mime: string)
    requires output == "out" && mime == "text/html"
    requires uri.host == "example.com" && uri.port == 80 && uri.path == "/"
    ensures DetermineLocalFilePath(output, uri, Some(mime)) == "out/example.com-80/index.html"
    ensures DetermineLocalFilePath(output, uri, None) == "out/example.com-80/index"
  {
    assert DecimalString(80) == "80";
    var bare := BarePath(output, uri);
    assert bare == "out/example.com-80/index";
    assert bare[19..] == "index";
    NoExtensionAfterSlash(bare, 18);
    HtmlSubtype(mime);
  }

  /** A remote path whose last segment has no dot gives a bare path without
      extension. */
  lemma DotlessSegmentHasNoExtension(output: string, uri: Uri, dir: string, segment: string)
    requires uri.path == dir + "/" + segment && segment != "" && '/' !in segment && '.' !in segment
    ensures GetExtension(BarePath(output, uri)) == ""
  {
    var head := output + "/" + SiteName(uri) + dir;
    assert uri.path[|uri.path| - 1] == segment[|segment| - 1];
    assert BarePath(output, uri) == head + "/" + segment;
    var bare := head + "/" + segment;
    assert bare[|head|] == '/' && bare[|head| + 1..] == segment;
    NoExtensionAfterSlash(bare, |head|);
  }

  /** Such a path is cached without an extension, so the cache calls it not
      text whatever the segment says. */
  lemma DotlessSegmentIsNotCachedText(output: string, disk: map<string, string>, uri: Uri, dir: string, segment: string)
    requires uri.path == dir + "/" + segment && segment != "" && '/' !in segment && '.' !in segment
    requires DetermineLocalFilePath(output, uri, None) in disk
    ensures SearchDiskCache(output, disk, uri).isTextFile == Some(false)
  {
    DotlessSegmentHasNoExtension(output, uri, dir, segment);
  }

  /** The two extension rules disagree on a last segment without a dot that
      names a known extension, such as `/docs/html`: the classifier, given
      no media type, calls the path text, while the cache calls the stored
      file not text. */
  lemma ExtensionRulesDisagree(output: string, disk: map<string, string>, uri: Uri, dir: string, segment: string)
    requires uri.path == dir + "/" + segment && segment != "" && '/' !in segment && '.' !in segment
    requires IsKnownTextExtension(segment)
    requires DetermineLocalFilePath(output, uri, None) in disk
    ensures SearchDiskCache(output, disk, uri).isTextFile == Some(false)
    ensures IsTextFile(None, uri.path)
  {
    DotlessSegmentIsNotCachedText(output, disk, uri, dir, segment);
    WholeSegmentIsText(dir, segment);
  }
}

=== FILE: records.dfy ===
/** The plain records the crawler exchanges with its callers. */
module Records {
  import opened Basics

  /** An absolute resource identifier. URI parsing and reference resolution
      are library behaviour and stay outside the model; a location is the
      record of the parts the crawler reads (host, port, absolute path),
      plus scheme and query so that distinct identifiers stay distinct.
      Record equality stands for `Uri` equality. */
  datatype Uri = Uri(scheme: string, host: string, port: nat, path: string, query: string)

  /** One successfully fetched resource (`CrawlResult`): its location, the
      raw payload and the declared media type, if any. */
  datatype CrawlResult = CrawlResult(uri: Uri, data: seq<byte>, mime: Option<string>)

  /** What the cache hook answers (`ContentRequestResponse`): whether to skip
      the network, whether the cached copy is text (nullable), and the cached
      text (nullable). */
  datatype ContentRequestResponse = ContentRequestResponse(skip: bool, isTextFile: Option<bool>, content: Option<string>)

  /** `new ContentRequestResponse(false)`: the optional arguments default to
      null, so both nullable fields are absent. */
  function NotCached(): (r: ContentRequestResponse)
    ensures !r.skip && r.isTextFile.None? && r.content.None?
  {
    ContentRequestResponse(false, None, None)
  }
}

=== FILE: scenarios.dfy ===
/** Whole crawls of a small site, worked out from the engine's definition:
    the page `a` holds two links, to `b` and to `c.png`. */
module Scenarios {
  import opened Basics
  import opened Records
  import opened Classifier
  import opened Links
  import opened LinkExamples
  import opened Crawler
  import opened CrawlerProperties

  /** `a` holds `content`, whose links resolve to `b` and `c`; the three
      URIs differ. */
  predicate Site(env: Env, a: Uri, b: Uri, c: Uri, content: string) {
    && content == "href=\"b\" src='c.png'"
    && a != b && a != c && b != c
    && env.resolve(a, "b") == b && env.resolve(a, "c.png") == c
  }

  /** The links of `a`, resolved, in order. */
  lemma SiteLinks(env: Env, a: Uri, b: Uri, c: Uri, content: string)
    requires Site(env, a, b, c, content)
    ensures Discover(env, content, a) == [b, c]
  {
    TwoLinks(content);
  }

  /** The state after fetching `u` as a plain page. */
  function Fetched(env: Env, st: State, u: Uri): State {
    Finish(Opened(env, st, u))
  }

  /** `b` and `c` are crawled in that order at depth 1 as plain pages,
      starting from a uniform state in which neither is claimed. */
  lemma LeavesFetched(env: Env, U: set<Uri>, st: State, b: Uri, c: Uri, rb: CrawlResult, rc: CrawlResult)
    requires RedirectsWithin(env, U) && Uniform(env, st) && b != c
    requires b !in st.claimed && c !in st.claimed && !Answered(env, b) && !Answered(env, c)
    requires env.fetch(b, env.followRedirect) == Success(rb.data, Some(""), rb.mime) && rb.uri == b
    requires env.fetch(c, env.followRedirect) == Success(rc.data, Some(""), rc.mime) && rc.uri == c
    ensures CrawlChildren(env, U, st, [b, c], 1, false)
         == Crawled(Returned([rb, rc]), Fetched(env, Fetched(env, st, b), c))
  {
    UniformResponse(env, st, b);
    PageAlone(env, U, st, b, 1, false);
    var mid := Fetched(env, st, b);
    UniformResponse(env, mid, c);
    PageAlone(env, U, mid, c, 1, false);
    var end := Fetched(env, mid, c);
    assert [b, c][1..] == [c] && [c][1..] == [];
    assert CrawlChildren(env, U, end, [], 1, false) == Crawled(Returned([]), end);
    ChildrenStep(env, U, mid, [c], 1, false);
    ChildrenStep(env, U, st, [b, c], 1, false);
  }

  /** A searched page whose children return `rs` yields itself followed
      by `rs`, in the state its children leave. */
  lemma ParentReturns(env: Env, U: set<Uri>, st: State, u: Uri, depth: uint32, forceDiscover: bool,
                      self: CrawlResult, text: string, rs: seq<CrawlResult>, end: State)
    requires RedirectsWithin(env, U) && depth >= 2 && Uniform(env, st)
    requires u !in st.claimed && !Answered(env, u) && self.uri == u
    requires env.fetch(u, env.followRedirect) == Success(self.data, Some(text), self.mime)
    requires forceDiscover || IsTextFile(self.mime, u.path)
    requires CrawlChildren(env, U, Fetched(env, st, u), Discover(env, text, u), depth - 1, forceDiscover)
          == Crawled(Returned(rs), end)
    ensures CrawlUri(env, U, st, u, depth, forceDiscover) == Crawled(Returned([self] + rs), end)
  {
    UniformResponse(env, st, u);
    PageParent(env, U, st, u, depth, forceDiscover);
  }

  /** The links of `a`, found in `content`, are crawled as plain pages one
      level down, once `a` itself was fetched. */
  lemma SiteChildren(env: Env, U: set<Uri>, st: State, a: Uri, b: Uri, c: Uri, content: string,
                     rb: CrawlResult, rc: CrawlResult)
    requires RedirectsWithin(env, U) && Uniform(env, st)
    requires a != b && a != c && b != c && Discover(env, content, a) == [b, c]
    requires a !in st.claimed && b !in st.claimed && c !in st.claimed
    requires !Answered(env, b) && !Answered(env, c)
    requires env.fetch(b, env.followRedirect) == Success(rb.data, Some(""), rb.mime) && rb.uri == b
    requires env.fetch(c, env.followRedirect) == Success(rc.data, Some(""), rc.mime) && rc.uri == c
    ensures var mid := Fetched(env, st, a);
      CrawlChildren(env, U, mid, Discover(env, content, a), 1, false)
        == Crawled(Returned([rb, rc]), Fetched(env, Fetched(env, mid, b), c))
  {
    UniformResponse(env, st, a);
    var mid := Fetched(env, st, a);
    assert Uniform(env, mid) && b !in mid.claimed && c !in mid.claimed;
    LeavesFetched(env, U, mid, b, c, rb, rc);
  }

  /** A result served as `text/html` is text, whatever its path. */
  lemma HtmlIsText(r: CrawlResult, path: string)
    requires r.mime == Some("text/html")
    ensures IsTextFile(r.mime, path)
  {
    TextMediaIsText(r.mime.value, 0, path);
  }

  /** A page `a` whose links resolve to `b` and `c`, at depth 2 from any
      uniform state that has claimed none of the three URIs: `a`, then its
      two links in order. */
  lemma SiteCrawled(env: Env, U: set<Uri>, st: State, a: Uri, b: Uri, c: Uri, content: string,
                    ra: CrawlResult, rb: CrawlResult, rc: CrawlResult)
    requires RedirectsWithin(env, U) && Uniform(env, st)
    requires a != b && a != c && b != c && Discover(env, content, a) == [b, c]
    requires a !in st.claimed && b !in st.claimed && c !in st.claimed
    requires !Answered(env, a) && !Answered(env, b) && !Answered(env, c)
    requires ra == CrawlResult(a, ra.data, Some("text/html"))
    requires env.fetch(a, env.followRedirect) == Success(ra.data, Some(content), ra.mime)
    requires env.fetch(b, env.followRedirect) == Success(rb.data, Some(""), rb.mime) && rb.uri == b
    requires env.fetch(c, env.followRedirect) == Success(rc.data, Some(""), rc.mime) && rc.uri == c
    ensures CrawlUri(env, U, st, a, 2, false)
         == Crawled(Returned([ra, rb, rc]), Fetched(env, Fetched(env, Fetched(env, st, a), b), c))
  {
    var end := Fetched(env, Fetched(env, Fetched(env, st, a), b), c);
    SiteChildren(env, U, st, a, b, c, content, rb, rc);
    HtmlIsText(ra, a.path);
    ParentReturns(env, U, st, a, 2, false, ra, content, [rb, rc], end);
    assert [ra] + [rb, rc] == [ra, rb, rc];
  }

  /** Depth 2 from a fresh crawler: every URI discovered is finished,
      nothing fails, and the crawler is idle again. */
  lemma DepthTwoCrawl(env: Env, U: set<Uri>, a: Uri, b: Uri, c: Uri, content: string,
                      ra: CrawlResult, rb: CrawlResult, rc: CrawlResult)
    requires RedirectsWithin(env, U) && Site(env, a, b, c, content) && env.cache.None?
    requires ra == CrawlResult(a, ra.data, Some("text/html"))
    requires env.fetch(a, env.followRedirect) == Success(ra.data, Some(content), ra.mime)
    requires env.fetch(b, env.followRedirect) == Success(rb.data, Some(""), rb.mime) && rb.uri == b
    requires env.fetch(c, env.followRedirect) == Success(rc.data, Some(""), rc.mime) && rc.uri == c
    ensures var (outcome, st') := CrawlAsync(env, U, Initial(), a, false, 2);
      && outcome == Done([ra, rb, rc])
      && st'.claimed == {a, b, c} && !st'.busy
      && st'.discovered == 3 && st'.finished == 3 && st'.errors == 0 && st'.externallyResolved == 0
  {
    SiteLinks(env, a, b, c, content);
    SiteCrawled(env, U, Initial().(busy := true), a, b, c, content, ra, rb, rc);
  }

  /** An entry whose fetch fails: the crawl still completes, with no result
      and the failure counted as an error and as finished. */
  lemma EntryFails(env: Env, U: set<Uri>, a: Uri, forceDiscover: bool, depth: uint32)
    requires RedirectsWithin(env, U) && env.cache.None? && depth >= 1
    requires env.fetch(a, env.followRedirect).Failure?
    ensures var (outcome, st') := CrawlAsync(env, U, Initial(), a, forceDiscover, depth);
      && outcome == Done([])
      && st'.discovered == 1 && st'.finished == 1 && st'.errors == 1 && !st'.busy
  {
    var st0 := Initial().(busy := true);
    UniformResponse(env, st0, a);
    FetchFailed(env, U, st0, a, depth, forceDiscover);
  }

  /** An entry fetched as HTML whose text cannot be decoded, crawled at a
      depth that searches it: the crawl completes with no result, one
      error, and the entry finished twice, so finished overtakes
      discovered. */
  lemma EntryUndecodable(env: Env, U: set<Uri>, a: Uri, data: seq<byte>, forceDiscover: bool, depth: uint32)
    requires RedirectsWithin(env, U) && env.cache.None? && depth >= 2
    requires env.fetch(a, env.followRedirect) == Success(data, None, Some("text/html"))
    ensures var (outcome, st') := CrawlAsync(env, U, Initial(), a, forceDiscover, depth);
      && outcome == Done([])
      && st'.discovered == 1 && st'.finished == 2 && st'.errors == 1 && !st'.busy
  {
    var st0 := Initial().(busy := true);
    UniformResponse(env, st0, a);
    TextMediaIsText("text/html", 0, a.path);
    PageUndecoded(env, U, st0, a, depth, forceDiscover);
  }

  /** The cache answers for `a` with a text page: `a` is not among the
      results, its links are, and `a` counts as finished and externally
      resolved without any fetch. */
  lemma CachedEntry(env: Env, U: set<Uri>, a: Uri, b: Uri, c: Uri, content: string,
                    rb: CrawlResult, rc: CrawlResult)
    requires RedirectsWithin(env, U) && Site(env, a, b, c, content) && env.cache.Some?
    requires env.cache.value(a) == ContentRequestResponse(true, Some(true), Some(content))
    requires !env.cache.value(b).skip && !env.cache.value(c).skip
    requires env.fetch(b, env.followRedirect) == Success(rb.data, Some(""), rb.mime) && rb.uri == b
    requires env.fetch(c, env.followRedirect) == Success(rc.data, Some(""), rc.mime) && rc.uri == c
    ensures var (outcome, st') := CrawlAsync(env, U, Initial(), a, false, 2);
      && outcome == Done([rb, rc])
      && st'.discovered == 3 && st'.finished == 3 && st'.externallyResolved == 1 && st'.errors == 0
  {
    var st0 := Initial().(busy := true);
    CachedParent(env, U, st0, a, 2, false);
    SiteLinks(env, a, b, c, content);
    LeavesFetched(env, U, ResolvedExternally(Claim(st0, a)), b, c, rb, rc);
  }

  /** The state after `u` answered a followed redirect without `Location`. */
  function Unlocated(env: Env, st: State, u: Uri): State {
    Opened(env, st, u).(unlocated := Opened(env, st, u).unlocated + 1)
  }

  /** `b` throws, `c` is still fetched, and the joined run is `b`'s
      exception. */
  lemma ChildThrows(env: Env, U: set<Uri>, st: State, b: Uri, c: Uri, rc: CrawlResult)
    requires RedirectsWithin(env, U) && Uniform(env, st) && b != c && env.followRedirect
    requires b !in st.claimed && c !in st.claimed && !Answered(env, b) && !Answered(env, c)
    requires env.fetch(b, true) == Redirect(302, None)
    requires env.fetch(c, true) == Success(rc.data, Some(""), rc.mime) && rc.uri == c
    ensures CrawlChildren(env, U, st, [b, c], 1, false)
         == Crawled(Threw(b, 302), Fetched(env, Unlocated(env, st, b), c))
  {
    UniformResponse(env, st, b);
    RedirectUnlocated(env, U, st, b, 1, false);
    var mid := Unlocated(env, st, b);
    UniformResponse(env, mid, c);
    PageAlone(env, U, mid, c, 1, false);
    var end := Fetched(env, mid, c);
    assert [b, c][1..] == [c] && [c][1..] == [];
    assert CrawlChildren(env, U, end, [], 1, false) == Crawled(Returned([]), end);
    ChildrenStep(env, U, mid, [c], 1, false);
    ChildrenStep(env, U, st, [b, c], 1, false);
  }

  /** `b` answers 302 without `Location`. Its exception reaches `a`, whose
      generic handler records an error and returns nothing, although `c`
      was fetched. The parent ends up finished twice and `b` never: the
      counters still balance, three discovered and three finished. */
  lemma ChildRedirectWithoutLocation(env: Env, U: set<Uri>, a: Uri, b: Uri, c: Uri, content: string,
                                     da: seq<byte>, rc: CrawlResult)
    requires RedirectsWithin(env, U) && Site(env, a, b, c, content) && env.cache.None?
    requires env.followRedirect
    requires env.fetch(a, true) == Success(da, Some(content), Some("text/html"))
    requires env.fetch(b, true) == Redirect(302, None)
    requires env.fetch(c, true) == Success(rc.data, Some(""), rc.mime) && rc.uri == c
    ensures var (outcome, st') := CrawlAsync(env, U, Initial(), a, false, 2);
      && outcome == Done([])
      && st'.claimed == {a, b, c}
      && st'.discovered == 3 && st'.finished == 3 && st'.errors == 1 && st'.unlocated == 1
  {
    var st0 := Initial().(busy := true);
    UniformResponse(env, st0, a);
    HtmlIsText(CrawlResult(a, da, Some("text/html")), a.path);
    PageDecoded(env, U, st0, a, 2, false);
    var mid := Fetched(env, st0, a);
    assert Uniform(env, mid) && b !in mid.claimed && c !in mid.claimed;
    SiteLinks(env, a, b, c, content);
    ChildThrows(env, U, mid, b, c, rc);
  }

  /** The entry itself answers 302 without `Location`: the exception
      escapes the crawl, the busy flag stays set, and every later crawl on
      this instance is refused. */
  lemma EntryRedirectWithoutLocation(env: Env, U: set<Uri>, a: Uri, forceDiscover: bool, depth: uint32,
                                     next: Uri, depth': uint32)
    requires RedirectsWithin(env, U) && env.cache.None? && env.followRedirect && depth >= 1
    requires env.fetch(a, true) == Redirect(302, None)
    ensures var (outcome, st') := CrawlAsync(env, U, Initial(), a, forceDiscover, depth);
      && outcome == Failed(a, 302) && st'.busy
      && CrawlAsync(env, U, st', next, forceDiscover, depth').0 == Busy
  {
    var st0 := Initial().(busy := true);
    UniformResponse(env, st0, a);
    RedirectUnlocated(env, U, st0, a, depth, forceDiscover);
  }
}

=== FILE: text.dfy ===
/** String helpers the crawler and the file-path code rely on: ASCII
    case-insensitive comparison (`StringComparison.OrdinalIgnoreCase`
    restricted to ASCII) and "the part after the last separator"
    (`s.Split(c).Last()`). */
module Text {

  /** ASCII lower-casing; every other character is left alone. */
  function Lower(c: char): char {
    if 'A' <= c <= 'Z' then (c as int + 32) as char else c
  }

  /** Ordinal, ASCII case-insensitive string equality. */
  predicate EqualsIgnoreCase(a: string, b: string) {
    |a| == |b| && forall i :: 0 <= i < |a| ==> Lower(a[i]) == Lower(b[i])
  }

  /** `needle` occurs in `s` at offset `i`, ignoring ASCII case. */
  predicate OccursAt(s: string, i: nat, needle: string) {
    i + |needle| <= |s| && EqualsIgnoreCase(s[i..i + |needle|], needle)
  }

  /** `s.Contains(needle, StringComparison.OrdinalIgnoreCase)`, computed by
      trying each start position from the left. */
  function ContainsIgnoreCase(s: string, needle: string): (r: bool)
    ensures r <==> exists i: nat :: OccursAt(s, i, needle)
    decreases |s|
  {
    if |s| < |needle| then
      assert forall i: nat :: !OccursAt(s, i, needle);
      false
    else if EqualsIgnoreCase(s[..|needle|], needle) then
      assert OccursAt(s, 0, needle);
      true
    else
      var rest := ContainsIgnoreCase(s[1..], needle);
      ShiftOccurrence(s, needle);
      rest
  }

  /** Occurrences in `s[1..]` are exactly the occurrences in `s` past offset 0. */
  lemma ShiftOccurrence(s: string, needle: string)
    requires |s| >= 1
    requires !OccursAt(s, 0, needle)
    ensures (exists i: nat :: OccursAt(s[1..], i, needle)) <==> (exists i: nat :: OccursAt(s, i, needle))
  {
    if exists i: nat :: OccursAt(s[1..], i, needle) {
      var i: nat :| OccursAt(s[1..], i, needle);
      assert s[1..][i..i + |needle|] == s[i + 1..i + 1 + |needle|];
      assert OccursAt(s, i + 1, needle);
    }
    if exists i: nat :: OccursAt(s, i, needle) {
      var i: nat :| OccursAt(s, i, needle);
      assert i != 0;
      assert s[1..][i - 1..i - 1 + |needle|] == s[i..i + |needle|];
      assert OccursAt(s[1..], i - 1, needle);
    }
  }

  /** `s.EndsWith(c)`. */
  predicate EndsWith(s: string, c: char) {
    |s| > 0 && s[|s| - 1] == c
  }

  /** `s.Split(c).Last()`: the text after the last `c`, or all of `s` when
      `c` does not occur. The three postconditions determine the result
      uniquely: it is a suffix of `s`, it holds no `c`, and it is either
      all of `s` or preceded by a `c`. */
  function LastAfter(s: string, c: char): (r: string)
    ensures c !in r
    ensures |r| <= |s| && r == s[|s| - |r|..]
    ensures |r| < |s| ==> s[|s| - |r| - 1] == c
    decreases |s|
  {
    if |s| == 0 then ""
    else if s[|s| - 1] == c then ""
    else LastAfter(s[..|s| - 1], c) + [s[|s| - 1]]
  }

  /** Whatever follows the last separator is what `LastAfter` returns. */
  lemma {:induction false} LastAfterSuffix(prefix: string, c: char, tail: string)
    requires c !in tail
    ensures LastAfter(prefix + [c] + tail, c) == tail
    decreases |tail|
  {
    var s := prefix + [c] + tail;
    if |tail| == 0 {
      assert s[|s| - 1] == c;
    } else {
      var init := tail[..|tail| - 1];
      assert s[..|s| - 1] == prefix + [c] + init;
      assert s[|s| - 1] == tail[|tail| - 1];
      LastAfterSuffix(prefix, c, init);
      assert init + [tail[|tail| - 1]] == tail;
    }
  }

  /** A string without the separator is its own last part. */
  lemma {:induction false} LastAfterNone(s: string, c: char)
    requires c !in s
    ensures LastAfter(s, c) == s
    decreases |s|
  {
    if |s| > 0 {
      assert s[|s| - 1] in s;
      var init := s[..|s| - 1];
      assert forall k :: 0 <= k < |init| ==> init[k] == s[k];
      LastAfterNone(init, c);
      assert init + [s[|s| - 1]] == s;
    }
  }
}
